=== FILE: README.md ===
# User-defined serial devices and log line packets, in Dafny

This project models two pieces of Micro-Manager.

**The user-defined serial adapter.** It lets a user drive simple serial
hardware (a shutter, a filter wheel) with no device-specific code. Every
command and expected reply is configured as C-style escaped text.

- `escape_codec.dfy` (module `EscapeCodec`): the escape codec. It converts
  bytes to escaped text and back.
- `response_detection.dfy` (module `ResponseDetection`): the response
  detectors. A detector decides where a reply ends: it ignores the reply,
  reads up to a terminator sequence, or reads a fixed byte count. Each
  detector is chosen by a configuration name.
- `serial_channel.dfy` (module `SerialChannel`): the shared base device
  (`UserDefSerialBase`). It covers sending a command, receiving and matching
  the reply, the busy-time bookkeeping, and initialization and shutdown.
- `serial_shutter.dfy` (module `SerialShutter`): the shutter.
- `serial_state_device.dfy` (module `SerialStateDevice`): the N-position
  state device.

**The logging core's line packets.** `line_packets.dfy` (module
`LinePackets`) models `SplitEntryIntoLines`. It breaks a log entry's text into
fixed-size packets at each newline and at 127 characters, and tags each
packet as the entry's first line, a new line, or a continuation.

Supporting modules:

- `outcomes.dfy` (`Outcomes`): `Option` and `Result`.
- `bytes.dfy` (`Bytes`): bytes as 8-bit characters, and digits and decimal
  numbers.

## How the model is built

**Values and time.**

- A C++ `char` is an `Octet`, a character below 256. `std::vector<char>` and
  `std::string` are both `ByteString`.
- The serial port during one exchange is a `Line` value with two parts:
  whether the write is accepted, and the bytes that arrive before the read
  timeout.
- The current time is a natural number passed in by the caller.
- Every device operation returns a `Step`. It holds the device afterwards,
  the byte strings written to the port in order, and a status.

**The codec.** Only the declarations of the codec are part of this model.
Their behaviour follows the C language's escape sequences (section 6.4.4.4
of ISO/IEC 9899):

- simple escapes;
- octal escapes of one to three digits;
- hexadecimal escapes, which take every hexadecimal digit that follows;
- a value above 255 is an error.

The encoder writes bytes as follows:

- Printable bytes other than the backslash are written as they are.
- The backslash, carriage return, line feed and tab are written as `\\`,
  `\r`, `\n` and `\t`.
- Every other byte is written as `\xHH` in lower case.
- A hexadecimal-digit character that directly follows a `\xHH` escape is
  written as a hexadecimal escape too. This keeps the greedy decoder from
  reading it as part of the escape.

**Detector names.** The header declares a name-based factory for each kind
but not the spelling of the names. The model chooses three forms: `Ignore`,
`Terminator:<escaped bytes>` and `Fixed:<decimal count>`.

- A terminator must decode and must not be empty. Its constructor takes a
  C string, so a terminator holding a NUL byte is refused.
- A terminator detector returns the reply with its terminator included.

**Lifecycle.** The lifecycle follows the header's `initialized_` flag rather
than a one-way state machine. Shutdown clears the flag, so a device can be
initialized again after a shutdown.

- Initializing an initialized device does nothing.
- Shutting down a device that is not initialized does nothing.
- An initialization, shutdown or query command is "configured" when it is
  non-empty.

**Selecting the detector.** The detector is built when the detection-method
setting is changed (`OnResponseDetectionMethod`), not at initialization. The
header stores only the detector (`responseDetector_`), not its name.

## Model

| member | source | states |
|---|---|---|
| EscapeCodec.EscapedStringFromByteString | DeviceAdapters/UserDefinedSerial/UserDefinedSerial.h:31-34 | the escaped text holds only printable characters and is between one and four characters per byte long |
| EscapeCodec.EscapeFrom | DeviceAdapters/UserDefinedSerial/UserDefinedSerial.h:31-34 | text written after a hexadecimal escape never starts with a hexadecimal digit, so the escape cannot absorb it; only printable characters |
| EscapeCodec.EncodeExample | DeviceAdapters/UserDefinedSerial/UserDefinedSerial.h:31-34 | a NUL byte and `A` are written `\x00` and `\x41`, and a space stays literal |
| EscapeCodec.ByteStringFromEscapedString | DeviceAdapters/UserDefinedSerial/UserDefinedSerial.h:36-40 | decoding never produces more bytes than the text has characters |
| EscapeCodec.ParseEscape | DeviceAdapters/UserDefinedSerial/UserDefinedSerial.h:36-40 | an escape sequence spans at least two characters of the text; the trailing-backslash error occurs exactly when the backslash is the last character |
| EscapeCodec.RoundTrip | DeviceAdapters/UserDefinedSerial/UserDefinedSerial.h:31-40 | decoding the escaped text of any byte string gives back exactly that byte string |
| EscapeCodec.RoundTripFrom | DeviceAdapters/UserDefinedSerial/UserDefinedSerial.h:31-40 | the round trip holds whether or not the text follows a hexadecimal escape |
| EscapeCodec.SimpleEscapeTextDecodes | DeviceAdapters/UserDefinedSerial/UserDefinedSerial.h:36-40 | a backslash and a simple escape letter decode to the byte that letter stands for, followed by the decoding of the rest |
| EscapeCodec.HexEscapeDecodes | DeviceAdapters/UserDefinedSerial/UserDefinedSerial.h:36-40 | `\xHH` followed by a non-hexadecimal character decodes to the byte with value HH |
| EscapeCodec.LiteralTextDecodesToItself | DeviceAdapters/UserDefinedSerial/UserDefinedSerial.h:36-40 | text with no backslash decodes to itself |
| EscapeCodec.DecodeFailureNeedsBackslash | DeviceAdapters/UserDefinedSerial/UserDefinedSerial.h:36-40 | every decoding error comes from a backslash in the text |
| EscapeCodec.ParseEscapeAppend | DeviceAdapters/UserDefinedSerial/UserDefinedSerial.h:36-40 | an escape that parses is read the same, with the same byte and length, when a backslash follows the text, since a backslash is no digit that could extend it |
| EscapeCodec.TrailingBackslashRejected | DeviceAdapters/UserDefinedSerial/UserDefinedSerial.h:36-40 | a backslash appended to any text that decodes makes the decode fail with a trailing-backslash error, whatever escapes come before it |
| EscapeCodec.UnknownEscapeRejected | DeviceAdapters/UserDefinedSerial/UserDefinedSerial.h:36-40 | a backslash before a character that starts no escape is an error naming that character |
| EscapeCodec.EmptyHexEscapeRejected | DeviceAdapters/UserDefinedSerial/UserDefinedSerial.h:36-40 | `\x` without a hexadecimal digit after it is an error |
| EscapeCodec.LongHexEscapeRejected | DeviceAdapters/UserDefinedSerial/UserDefinedSerial.h:36-40 | `\x100` is one escape with value 256, which is out of range |
| EscapeCodec.OctalEscapeStopsAtThreeDigits | DeviceAdapters/UserDefinedSerial/UserDefinedSerial.h:36-40 | an octal escape reads at most three digits: `\1012` is `A` followed by `2` |
| EscapeCodec.OctalEscapeParses | DeviceAdapters/UserDefinedSerial/UserDefinedSerial.h:36-40 | `\101` is one four-character escape for `A` even when another octal digit follows |
| EscapeCodec.OctalEscapeOutOfRange | DeviceAdapters/UserDefinedSerial/UserDefinedSerial.h:36-40 | `\400` exceeds a byte and is an error |
| Bytes.DecimalRoundTrip | DeviceAdapters/UserDefinedSerial/UserDefinedSerial.h:90-103 | the decimal count written in a fixed-length detector's name parses back to that count |
| ResponseDetection.NewByName | DeviceAdapters/UserDefinedSerial/UserDefinedSerial.h:46-56 | the detector built is the one the matching kind's factory builds from the name, picked by its prefix, and it is well formed; no detector is built exactly when no kind accepts the name |
| ResponseDetection.IgnoringNewByName | DeviceAdapters/UserDefinedSerial/UserDefinedSerial.h:58-69 | the ignoring detector is selected by exactly the name `Ignore` |
| ResponseDetection.TerminatorNewByName | DeviceAdapters/UserDefinedSerial/UserDefinedSerial.h:71-88 | a terminator detector is built exactly when the name is `Terminator:` followed by escaped text that decodes to a non-empty terminator with no NUL byte; it keeps that escaped text as its name |
| ResponseDetection.FixedLengthNewByName | DeviceAdapters/UserDefinedSerial/UserDefinedSerial.h:90-103 | a fixed-length detector is built exactly when the name is `Fixed:` followed by a decimal number, and that number is its byte count |
| ResponseDetection.KindPrefixesDistinct | DeviceAdapters/UserDefinedSerial/UserDefinedSerial.h:46-103 | no name carries the prefix of two kinds |
| ResponseDetection.GetMethodName | DeviceAdapters/UserDefinedSerial/UserDefinedSerial.h:53 | the ignoring detector's name is `Ignore`; a terminator's name is `Terminator:` and its escaped spelling; a fixed length's name is `Fixed:` and a decimal that parses back to its count |
| ResponseDetection.NameRoundTrip | DeviceAdapters/UserDefinedSerial/UserDefinedSerial.h:46-103 | building a detector from the name it reports gives back the same detector |
| ResponseDetection.NewByNameKeepsName | DeviceAdapters/UserDefinedSerial/UserDefinedSerial.h:49-53 | a detector built from a name reports that name, except that a fixed-length name may be spelled with leading zeros |
| ResponseDetection.IgnoreSelected | DeviceAdapters/UserDefinedSerial/UserDefinedSerial.h:58-69 | `Ignore` selects the ignoring detector |
| ResponseDetection.CrLfTerminatorSelected | DeviceAdapters/UserDefinedSerial/UserDefinedSerial.h:71-88 | `Terminator:\r\n` in escaped form selects the CR LF terminator |
| ResponseDetection.UnknownNamesRefused | DeviceAdapters/UserDefinedSerial/UserDefinedSerial.h:46-103 | a missing or malformed parameter and an unknown form select no detector |
| ResponseDetection.FirstTerminated | DeviceAdapters/UserDefinedSerial/UserDefinedSerial.h:80-81 | finds the shortest prefix of the incoming bytes that ends with the terminator, or shows that no prefix does |
| ResponseDetection.Recv | DeviceAdapters/UserDefinedSerial/UserDefinedSerial.h:54-99 | a reply is a prefix of the incoming bytes; ignoring always yields the empty reply; a fixed count succeeds exactly when that many bytes arrive, and yields that many; a terminator reply ends with the terminator at its first occurrence, and otherwise the read times out |
| ResponseDetection.TerminatedReply | DeviceAdapters/UserDefinedSerial/UserDefinedSerial.h:80-81 | a reply that first ends with the terminator at its end is returned whole, whatever bytes follow it |
| ResponseDetection.CrLfReply | DeviceAdapters/UserDefinedSerial/UserDefinedSerial.h:80-81 | with a CR LF terminator, `OK\r\n` is read up to and including the terminator |
| SerialChannel.StartBusy | DeviceAdapters/UserDefinedSerial/UserDefinedSerial.h:142 | only the time of the last action changes, and it becomes now |
| SerialChannel.Busy | DeviceAdapters/UserDefinedSerial/UserDefinedSerial.h:133 | the device is busy exactly while the clock is before the last action time plus the settle interval |
| SerialChannel.BusyOnlyFromLastActionTime | DeviceAdapters/UserDefinedSerial/UserDefinedSerial.h:133 | two devices with the same last action time are equally busy |
| SerialChannel.StartBusyWindow | DeviceAdapters/UserDefinedSerial/UserDefinedSerial.h:133-142 | after an action at time t the device is busy exactly until t plus the settle interval |
| SerialChannel.WireBytes | DeviceAdapters/UserDefinedSerial/UserDefinedSerial.h:168-177 | the command goes first; binary mode sends it as it is, and ASCII mode appends the terminator |
| SerialChannel.Send | DeviceAdapters/UserDefinedSerial/UserDefinedSerial.h:168 | one write of the command's wire bytes; it succeeds exactly when the port accepts it, a failure is a port error that changes nothing, and a success starts the busy interval |
| SerialChannel.Exchange | DeviceAdapters/UserDefinedSerial/UserDefinedSerial.h:159-168 | one write, then one reply from the detector; an accepted write sets the last action time to now and a refused one leaves it; a refused write is a port error, and a reply the detector does not complete is a timeout |
| SerialChannel.SendRecv | DeviceAdapters/UserDefinedSerial/UserDefinedSerial.h:159-160 | succeeds exactly when the write is accepted and the received reply equals the expected one; otherwise a refused write is a port error, a missing reply a timeout, and any other reply a mismatch carrying the expected and the actual reply; an accepted write starts the busy interval |
| SerialChannel.FirstMatch | DeviceAdapters/UserDefinedSerial/UserDefinedSerial.h:162-165 | the index of the first alternative equal to the reply, and none exactly when no alternative equals it |
| SerialChannel.SendQueryRecvAlternative | DeviceAdapters/UserDefinedSerial/UserDefinedSerial.h:162-165 | one write; on success the index names the first alternative equal to the received reply; it fails exactly when the write is refused (port error), the reply times out (timeout), or the reply matches no alternative (a mismatch carrying all alternatives and the reply); an accepted write starts the busy interval |
| SerialChannel.QueryExamples | DeviceAdapters/UserDefinedSerial/UserDefinedSerial.h:162-165 | a reply equal to the first alternative gives index 0, and a reply equal to none is a mismatch carrying all alternatives |
| SerialChannel.NewChannel | DeviceAdapters/UserDefinedSerial/UserDefinedSerial.h:171-183 | a new device is uninitialized and has the configured detector and send mode; the detector must be well formed, as every detector a configuration name selects is |
| SerialChannel.SetResponseDetectionMethod | DeviceAdapters/UserDefinedSerial/UserDefinedSerial.h:148 | the setting is accepted exactly when the name selects a detector, which then replaces the old one and reports the name; otherwise a configuration error |
| SerialChannel.Initialize | DeviceAdapters/UserDefinedSerial/UserDefinedSerial.h:131 | a no-op when already initialized; with no initialization command it succeeds without I/O; otherwise it sends that command and succeeds exactly on the expected reply, and a failure reports the exchange's own error (write refused, timeout or mismatched reply); the device ends initialized exactly on success |
| SerialChannel.Shutdown | DeviceAdapters/UserDefinedSerial/UserDefinedSerial.h:132 | a no-op when not initialized; otherwise it sends the shutdown command if one is configured and reports the exchange's own status, errors included, and always leaves the device uninitialized |
| SerialChannel.ShutdownTwiceSendsOnce | DeviceAdapters/UserDefinedSerial/UserDefinedSerial.h:132 | two shutdowns write the shutdown command at most once, and the second neither writes nor fails |
| SerialShutter.Initialize | DeviceAdapters/UserDefinedSerial/UserDefinedSerial.h:205 | the shutter's initialization is the base device's, with the same writes, base state and status, and the shutter's own settings are untouched |
| SerialShutter.Shutdown | DeviceAdapters/UserDefinedSerial/UserDefinedSerial.h:206 | the shutter's shutdown is the base device's, with the same writes, base state and status, and always leaves it uninitialized |
| SerialShutter.SetOpen | DeviceAdapters/UserDefinedSerial/UserDefinedSerial.h:200 | sends the open or the close command; succeeds exactly on the matching expected reply, and a failure reports the exchange's own error; the cached state becomes the requested one only on success |
| SerialShutter.GetOpen | DeviceAdapters/UserDefinedSerial/UserDefinedSerial.h:201 | without a query command, returns the cached state with no I/O; with one, the reply is matched against the open reply first and then the close reply, it fails exactly when neither matches, with the query exchange's own error, and the cache follows the answer |
| SerialShutter.OpenScenario | DeviceAdapters/UserDefinedSerial/UserDefinedSerial.h:200 | with a CR LF terminator, opening with command `OPEN` and reply `OK\r\n` writes `OPEN` (plus the ASCII terminator in ASCII mode), succeeds, and leaves the shutter open |
| SerialStateDevice.NewStateDevice | DeviceAdapters/UserDefinedSerial/UserDefinedSerial.h:258-268 | a device of N positions has tables of exactly N empty entries and starts at position 0 |
| SerialStateDevice.SetPositionTemplate | DeviceAdapters/UserDefinedSerial/UserDefinedSerial.h:265-268 | before or after initialization, accepts exactly the positions inside the table and changes only that position's entries |
| SerialStateDevice.Initialize | DeviceAdapters/UserDefinedSerial/UserDefinedSerial.h:131 | the base device's initialization, with the same writes, base state and status; the tables and the position are untouched |
| SerialStateDevice.Shutdown | DeviceAdapters/UserDefinedSerial/UserDefinedSerial.h:132 | the base device's shutdown, with the same writes, base state and status; the tables and the position are untouched |
| SerialStateDevice.SetState | DeviceAdapters/UserDefinedSerial/UserDefinedSerial.h:245-266 | a position outside the table is refused with no I/O; otherwise that position's command is sent, the position becomes current exactly when its expected reply arrives, and a failure reports the exchange's own error |
| SerialStateDevice.GetState | DeviceAdapters/UserDefinedSerial/UserDefinedSerial.h:245-268 | without a query command, returns the current position with no I/O; with one, the first position whose query reply matches becomes current, and the query fails exactly when no position's reply matches, with the query exchange's own error |
| SerialStateDevice.SetStatePastLastRefused | DeviceAdapters/UserDefinedSerial/UserDefinedSerial.h:262-263 | one past the last position is a configuration error that writes nothing and keeps the position |
| SerialStateDevice.QueryScenario | DeviceAdapters/UserDefinedSerial/UserDefinedSerial.h:259-268 | with three positions, the query reply of position 2 makes position 2 current |
| LinePackets.CutLine | MMCore/Logging/GenericLinePacket.h:104-133 | filling a packet with room never consumes more text than there is, and consumes some whenever there is text and room; where the cut falls is stated by CutLineAt |
| LinePackets.CutLineAt | MMCore/Logging/GenericLinePacket.h:106-133 | the line is the head of the text; a line ended by a newline stops right before a newline sequence and the rest starts right after it (`\r\n` as one); any other line is followed directly by the rest |
| LinePackets.CutLineBounds | MMCore/Logging/GenericLinePacket.h:104-133 | a packet's line fits its room and holds no newline character; a line ended by a newline is shorter than the room, and a line cut with text left over fills the room |
| LinePackets.CutLineKeepsText | MMCore/Logging/GenericLinePacket.h:108-133 | filling a packet drops only the newline sequence it consumes; `\r\n` counts as one newline |
| LinePackets.FillPacket | MMCore/Logging/GenericLinePacket.h:104-135 | the character loop produces exactly the line, the unread text and the newline flag of the functional cut |
| LinePackets.RawPacketsShape | MMCore/Logging/GenericLinePacket.h:95-140 | every packet carries the entry's metadata and a line of at most 127 characters with no newline; only the first is tagged as the entry's first line |
| LinePackets.RawPacketsKeepText | MMCore/Logging/GenericLinePacket.h:95-140 | the packets hold exactly the entry's text with its newlines removed |
| LinePackets.RawPacketsContinuation | MMCore/Logging/GenericLinePacket.h:102-129 | a later packet is a line continuation exactly when the packet before it is full |
| LinePackets.DropTrailingEmpty | MMCore/Logging/GenericLinePacket.h:136-145 | keeps a non-empty prefix, drops only empty packets, keeps the text, and leaves no empty last packet when several are kept |
| LinePackets.Split | MMCore/Logging/GenericLinePacket.h:78-146 | an entry yields at least one packet; the first is tagged as the entry's first line; together they hold the text without newlines; the last of several is never empty |
| LinePackets.SplitRendersText | MMCore/Logging/GenericLinePacket.h:95-145 | rendering the packets with a line break before each `NewLine` packet gives the entry's text with every line ending written as `\n` and trailing line breaks removed, so a `NewLine` packet starts exactly at each line break |
| LinePackets.RawPacketsRender | MMCore/Logging/GenericLinePacket.h:95-140 | the emitted packets render as the normalised text without one final line break |
| LinePackets.SplitShape | MMCore/Logging/GenericLinePacket.h:78-146 | every packet is well shaped, later packets are new lines or continuations, and a continuation follows exactly a full packet |
| LinePackets.EmitPackets | MMCore/Logging/GenericLinePacket.h:95-140 | the emitting loop appends to the vector exactly the packets of the functional split, and tracks one past the last non-empty one |
| LinePackets.SplitEntryIntoLinesLoop | MMCore/Logging/GenericLinePacket.h:78-146 | the whole single-pass routine equals the as-written function, and on an empty vector it equals the functional split |
| LinePackets.SplitEntryIntoLinesAsWritten | MMCore/Logging/GenericLinePacket.h:95-145 | as written, the result is a non-empty prefix of the vector with the entry's packets appended, and every packet cut off at or after the old end of the vector is empty |
| LinePackets.RawPackets | MMCore/Logging/GenericLinePacket.h:98-140 | the emission loop runs at least once, so an entry gives at least one packet, and the first carries the state it starts with |
| LinePackets.PastLastNonEmpty | MMCore/Logging/GenericLinePacket.h:97-139 | either 0, when no packet at or after `from` has text, or one past the last packet at or after `from` whose line is non-empty; every packet from there on is empty |
| LinePackets.KeptCount | MMCore/Logging/GenericLinePacket.h:143-145 | the erase keeps at least one packet and never cuts before one past the last non-empty packet; only when there is none is the count raised to 1 |
| LinePackets.SplitEntryIntoLines | MMCore/Logging/GenericLinePacket.h:78-146 | appending an entry leaves the packets already queued untouched and appends exactly the packets the entry splits into on its own (`Split`), so each appended packet fits 127 characters with no newline, continuation and new-line tags follow `SplitShape`, the last of several is non-empty, and they render back the normalised text |
| LinePackets.AsWrittenAgreesOnEmptyVector | MMCore/Logging/GenericLinePacket.h:97-145 | on an empty vector the routine as written and the intended one agree |
| LinePackets.AsWrittenCorrectWithText | MMCore/Logging/GenericLinePacket.h:97-145 | when the entry has text other than newlines, the routine as written and the intended one agree on every vector |
| LinePackets.AsWrittenLosesPacketsWithoutText | MMCore/Logging/GenericLinePacket.h:97-145 | when the entry has no text but newlines and packets are already queued, the routine as written keeps only the first queued packet |
| LinePackets.AsWrittenCounterexample | MMCore/Logging/GenericLinePacket.h:97-145 | two queued packets and an empty entry: one packet is left instead of three |
| LinePackets.CrLfIsOneNewline | MMCore/Logging/GenericLinePacket.h:111-124 | `a\r\nb` gives the packets `a` (first line) and `b` (new line) |
| LinePackets.TrailingNewlinesDropped | MMCore/Logging/GenericLinePacket.h:142-145 | trailing newlines leave no empty packets, and an empty entry keeps one empty packet |

## Left out

- Serial I/O is abstracted. The host's port calls, read timeouts and error codes become the `Line` value and the `Error` datatype. The adapter's numeric status codes are not modelled.
- The property machinery is not modelled. This covers the property action handlers (`OnPort`, `OnCommandSendMode`, `OnState`, `OnNumberOfPositions`), `CreateByteStringProperty`, and `CreatePreInitProperties` / `CreatePostInitProperties`. Each setting becomes a field of the device value, or an operation that sets it.
- `GetName`, `GetNumberOfPositions` and the class-template plumbing (`This`, the two base classes) are left out. They only report constants or forward calls.
- `Fire` is left out. It always reports an unsupported command.
- `MM::MMTime` is left out. Time is a natural number passed in by the caller.
- The settle interval is a parameter of `Busy`. Its value lives in the implementation file, which is not part of this model.
- The implementation file of the serial adapter is not part of this model. The codec's escape rules follow section 6.4.4.4 of ISO/IEC 9899 and are stated above. The encoder's exact spelling of a hexadecimal escape (lower case, two digits) is a modelling choice.
- The current-position setting of the state device is read from a host property. Here it is a field, and `SetState`/`GetState` stand for its handler.
- The log entry metadata (logger, entry and stamp data) is an opaque value copied into every packet.
- The asynchronous logging backend and the sinks that consume packets are outside this model.
- The NUL terminator of a packet's buffer is not modelled. A packet's `line` holds the characters before it, and the entry text is a C string with no NUL inside.
- `std::size_t` overflow is not modelled. Counts and indices are unbounded naturals.
- SerialShutter.Initialize: the header declares an override of the shutter's initialization whose body is not visible; any work it does beyond the base device's initialization is modelled as none.
- SerialShutter.Shutdown: the header declares an override of the shutter's shutdown whose body is not visible; any work it does beyond the base device's shutdown is modelled as none.
- Detector names: the header does not show how names are spelled; `Ignore`, `Terminator:<escaped bytes>` and `Fixed:<decimal count>` are a modelling choice.
- LinePackets.FillPacket: does not state that it always consumes at least one character. `EmitPackets` derives that fact from the functional cut instead.

## Findings

| source | as written | input that shows it | evidently intended | confidence | as-written member | corrected member |
|---|---|---|---|---|---|---|
| MMCore/Logging/GenericLinePacket.h:97-145 | `pastLastNonEmptyIndex` starts at 0, an absolute index into the vector, and is raised to 1 when the entry produced no non-empty packet. The erase then cuts the vector after its first element, even when it held packets before the call. | `lines` holding two packets `a` and `b`, entry text `""` (or only newlines): the result is `[a]` (`LinePackets.AsWrittenCounterexample`) | packets already in the vector stay untouched, and the entry keeps one empty first-line packet: `[a, b, <empty>]` | medium, not executed; harmless for callers that always pass an empty vector | LinePackets.AsWrittenLosesPacketsWithoutText | LinePackets.SplitEntryIntoLines |

=== FILE: bytes.dfy ===
/** Byte strings as the serial adapter sees them: a C++ `char` is one 8-bit
    code unit, and both `std::vector<char>` (commands, responses) and
    `std::string` (escaped text, detector names) are sequences of them. */
module Bytes {

  import opened Outcomes

  /** One C++ `char`: a character whose code is below 256. */
  type Octet = c: char | (c as int) < 256 witness '\0'

  /** `std::vector<char>`: any bytes, zero included, with no terminator. */
  type ByteString = seq<Octet>

  /** The byte with numeric value `v`. */
  function OctetOf(v: nat): (b: Octet)
    requires v < 256
    ensures b as int == v
  {
    v as char
  }

  /** `s` has `suffix` as its last `|suffix|` bytes. */
  predicate EndsWith(s: ByteString, suffix: ByteString) {
    |suffix| <= |s| && s[|s| - |suffix|..] == suffix
  }

  /** `s` begins with `prefix`. */
  predicate StartsWith(s: ByteString, prefix: ByteString) {
    |prefix| <= |s| && s[..|prefix|] == prefix
  }

  predicate IsDecimalDigit(b: Octet) {
    '0' <= b <= '9'
  }

  predicate IsOctalDigit(b: Octet) {
    '0' <= b <= '7'
  }

  predicate IsHexDigit(b: Octet) {
    '0' <= b <= '9' || 'a' <= b <= 'f' || 'A' <= b <= 'F'
  }

  /** The value of one digit in base 8, 10 or 16. */
  function DigitValue(b: Octet): (v: nat)
    requires IsHexDigit(b)
    ensures v < 16
    ensures IsDecimalDigit(b) ==> v < 10
    ensures IsOctalDigit(b) ==> v < 8
  {
    if '0' <= b <= '9' then b as int - '0' as int
    else if 'a' <= b <= 'f' then b as int - 'a' as int + 10
    else b as int - 'A' as int + 10
  }

  /** The lower-case hexadecimal digit for a value below 16. */
  function HexDigit(v: nat): (b: Octet)
    requires v < 16
    ensures IsHexDigit(b) && DigitValue(b) == v
    ensures v < 10 ==> IsDecimalDigit(b)
  {
    if v < 10 then OctetOf('0' as int + v) else OctetOf('a' as int + v - 10)
  }

  /** The number written by `digits` in base `radix`, most significant first. */
  function DigitsValue(digits: ByteString, radix: nat): (v: nat)
    requires forall i :: 0 <= i < |digits| ==> IsHexDigit(digits[i])
  {
    if digits == [] then 0
    else
      var high := DigitsValue(digits[..|digits| - 1], radix);
      ProductIsNatural(high, radix);
      high * radix + DigitValue(digits[|digits| - 1])
  }

  lemma ProductIsNatural(a: nat, b: nat)
    ensures a * b >= 0
  {
  }

  /** The value of two digits. */
  lemma DigitsValueOfTwo(d: ByteString, radix: nat)
    requires |d| == 2 && IsHexDigit(d[0]) && IsHexDigit(d[1])
    ensures DigitsValue(d, radix) == DigitValue(d[0]) * radix + DigitValue(d[1])
  {
    assert d[..1][..0] == [];
    assert DigitsValue(d[..1], radix) == DigitValue(d[0]);
  }

  /** The value of three digits. */
  lemma DigitsValueOfThree(d: ByteString, radix: nat)
    requires |d| == 3 && IsHexDigit(d[0]) && IsHexDigit(d[1]) && IsHexDigit(d[2])
    ensures DigitsValue(d, radix) == (DigitValue(d[0]) * radix + DigitValue(d[1])) * radix + DigitValue(d[2])
  {
    DigitsValueOfTwo(d[..2], radix);
  }

  /** Length of the run of characters satisfying `IsHexDigit` at the head of `s`. */
  function HexRunLength(s: ByteString): (n: nat)
    ensures n <= |s|
    ensures forall i :: 0 <= i < n ==> IsHexDigit(s[i])
    ensures n < |s| ==> !IsHexDigit(s[n])
  {
    if s == [] || !IsHexDigit(s[0]) then 0 else 1 + HexRunLength(s[1..])
  }

  /** Length of the octal-digit run at the head of `s`, but at most `limit`. */
  function OctalRunLength(s: ByteString, limit: nat): (n: nat)
    ensures n <= |s| && n <= limit
    ensures forall i :: 0 <= i < n ==> IsOctalDigit(s[i])
    ensures n < |s| && n < limit ==> !IsOctalDigit(s[n])
  {
    if s == [] || limit == 0 || !IsOctalDigit(s[0]) then 0
    else 1 + OctalRunLength(s[1..], limit - 1)
  }

  /** A run of `limit` octal digits is read whole. */
  lemma {:induction false} OctalRunFull(s: ByteString, limit: nat)
    requires limit <= |s| && forall i :: 0 <= i < limit ==> IsOctalDigit(s[i])
    ensures OctalRunLength(s, limit) == limit
    decreases limit
  {
    if limit > 0 {
      OctalRunFull(s[1..], limit - 1);
    }
  }

  /** A byte that is not a hexadecimal digit, appended, does not lengthen
      the run at the head. */
  lemma {:induction false} HexRunAppend(s: ByteString, b: Octet)
    requires !IsHexDigit(b)
    ensures HexRunLength(s + [b]) == HexRunLength(s)
    decreases |s|
  {
    if s != [] {
      assert (s + [b])[1..] == s[1..] + [b];
      HexRunAppend(s[1..], b);
    }
  }

  /** A byte that is not an octal digit, appended, does not lengthen the
      run at the head. */
  lemma {:induction false} OctalRunAppend(s: ByteString, limit: nat, b: Octet)
    requires !IsOctalDigit(b)
    ensures OctalRunLength(s + [b], limit) == OctalRunLength(s, limit)
    decreases |s|
  {
    if s != [] && limit > 0 {
      assert (s + [b])[1..] == s[1..] + [b];
      OctalRunAppend(s[1..], limit - 1, b);
    }
  }

  /** Text made of hexadecimal digits only is one run. */
  lemma {:induction false} HexRunWhole(s: ByteString)
    requires forall i :: 0 <= i < |s| ==> IsHexDigit(s[i])
    ensures HexRunLength(s) == |s|
    decreases |s|
  {
    if s != [] {
      HexRunWhole(s[1..]);
    }
  }

  /** Decimal text of a natural number, without leading zeros. */
  function DecimalString(n: nat): (s: ByteString)
    ensures s != []
    ensures forall i :: 0 <= i < |s| ==> IsDecimalDigit(s[i])
    decreases n
  {
    if n < 10 then [HexDigit(n)] else DecimalString(n / 10) + [HexDigit(n % 10)]
  }

  /** The non-negative integer written in decimal by `s`, if `s` is a
      non-empty run of decimal digits. */
  function ParseDecimal(s: ByteString): (r: Option<nat>)
    ensures r.Some? <==> s != [] && forall i :: 0 <= i < |s| ==> IsDecimalDigit(s[i])
  {
    if s != [] && forall i :: 0 <= i < |s| ==> IsDecimalDigit(s[i])
    then Some(DigitsValue(s, 10))
    else None
  }

  /** Printing a count in decimal and parsing it back gives the count. */
  lemma {:induction false} DecimalRoundTrip(n: nat)
    ensures ParseDecimal(DecimalString(n)) == Some(n)
  {
    DecimalValue(n);
  }

  lemma {:induction false} DecimalValue(n: nat)
    ensures DigitsValue(DecimalString(n), 10) == n
    decreases n
  {
    if n >= 10 {
      var s := DecimalString(n);
      assert s[..|s| - 1] == DecimalString(n / 10);
      DecimalValue(n / 10);
    }
  }
}

=== FILE: escape_codec.dfy ===
/** The byte-string escape codec of the user-defined serial adapter
    (`EscapedStringFromByteString` / `ByteStringFromEscapedString`), which lets
    binary commands and responses be edited as one line of text.

    The escape syntax is that of character constants in ISO/IEC 9899
    (section 6.4.4.4): the simple escapes, octal escapes of one to three
    digits, and hexadecimal escapes of one or more digits. A hexadecimal
    escape takes every hexadecimal digit that follows it, so the encoder
    never lets a literal hexadecimal digit follow a hexadecimal escape. */
module EscapeCodec {

  import opened Outcomes
  import opened Bytes

  /** Why an escaped string could not be decoded. */
  datatype EscapeError =
    | TrailingBackslash          // a backslash is the last character
    | UnknownEscape(c: Octet)    // backslash followed by a character with no escape meaning
    | EmptyHexEscape             // `\x` followed by no hexadecimal digit
    | EscapeOutOfRange           // an octal or hexadecimal escape above 255

  /** Printable in the C locale (`isprint`): space through tilde. */
  predicate IsPrintable(b: Octet) {
    0x20 <= b as int <= 0x7E
  }

  // ---------------------------------------------------------------- encoding

  /** Whether byte `b` is written as `\xHH`, given whether the text written
      so far ends with a hexadecimal escape. */
  predicate NeedsHexEscape(b: Octet, afterHex: bool) {
    b != '\\' && b != '\r' && b != '\n' && b != '\t'
    && (!IsPrintable(b) || (afterHex && IsHexDigit(b)))
  }

  /** The escaped text for one byte. */
  function EscapeByte(b: Octet, afterHex: bool): (t: ByteString)
    ensures t != []
    ensures forall i :: 0 <= i < |t| ==> IsPrintable(t[i])
    ensures afterHex ==> !IsHexDigit(t[0])
  {
    if b == '\\' then "\\\\"
    else if b == '\r' then "\\r"
    else if b == '\n' then "\\n"
    else if b == '\t' then "\\t"
    else if NeedsHexEscape(b, afterHex) then ['\\', 'x', HexDigit(b as int / 16), HexDigit(b as int % 16)]
    else [b]
  }

  /** The escaped text for `bytes`, written after text that ends with a
      hexadecimal escape exactly when `afterHex`. */
  function EscapeFrom(bytes: ByteString, afterHex: bool): (t: ByteString)
    ensures forall i :: 0 <= i < |t| ==> IsPrintable(t[i])
    ensures afterHex && t != [] ==> !IsHexDigit(t[0])
    ensures |bytes| <= |t| <= 4 * |bytes|
  {
    if bytes == [] then []
    else EscapeByte(bytes[0], afterHex) + EscapeFrom(bytes[1..], NeedsHexEscape(bytes[0], afterHex))
  }

  /** Converts bytes to C-style escaped text. Always succeeds; the text holds
      no control character (every byte is printable), so it fits in a
      single-line text field. */
  function EscapedStringFromByteString(bytes: ByteString): (text: ByteString)
    ensures forall i :: 0 <= i < |text| ==> IsPrintable(text[i])
    ensures |bytes| <= |text| <= 4 * |bytes|
  {
    EscapeFrom(bytes, false)
  }

  // ---------------------------------------------------------------- decoding

  /** The letters that form a simple escape sequence after a backslash. */
  predicate IsSimpleEscape(c: Octet) {
    c == '\'' || c == '"' || c == '?' || c == '\\'
    || c == 'a' || c == 'b' || c == 'f' || c == 'n' || c == 'r' || c == 't' || c == 'v'
  }

  /** The byte a simple escape sequence stands for. */
  function SimpleEscapeValue(c: Octet): (b: Octet)
    requires IsSimpleEscape(c)
  {
    match c
    case 'a' => '\U{7}'
    case 'b' => '\U{8}'
    case 'f' => '\U{C}'
    case 'n' => '\n'
    case 'r' => '\r'
    case 't' => '\t'
    case 'v' => '\U{B}'
    case _ => c
  }

  /** One decoded escape sequence: the byte it stands for and how many
      characters of text, backslash included, it occupies. */
  datatype Escape = Escape(value: Octet, length: nat)

  /** Decodes the escape sequence at the head of `text`. */
  function ParseEscape(text: ByteString): (r: Result<Escape, EscapeError>)
    requires text != [] && text[0] == '\\'
    ensures r.Success? ==> 2 <= r.value.length <= |text|
    ensures r.Failure? && r.error == TrailingBackslash <==> |text| == 1
  {
    if |text| == 1 then Failure(TrailingBackslash)
    else if IsSimpleEscape(text[1]) then Success(Escape(SimpleEscapeValue(text[1]), 2))
    else if IsOctalDigit(text[1]) then
      var n := OctalRunLength(text[1..], 3);
      var v := DigitsValue(text[1..1 + n], 8);
      if v > 255 then Failure(EscapeOutOfRange) else Success(Escape(OctetOf(v), 1 + n))
    else if text[1] == 'x' then
      var n := HexRunLength(text[2..]);
      var v := DigitsValue(text[2..2 + n], 16);
      if n == 0 then Failure(EmptyHexEscape)
      else if v > 255 then Failure(EscapeOutOfRange)
      else Success(Escape(OctetOf(v), 2 + n))
    else Failure(UnknownEscape(text[1]))
  }

  /** `b` followed by the decoding of the rest, or the rest's error. */
  function Cons(b: Octet, rest: Result<ByteString, EscapeError>): (r: Result<ByteString, EscapeError>)
    ensures r.Success? <==> rest.Success?
    ensures r.Success? ==> r.value == [b] + rest.value
    ensures r.Failure? ==> r.error == rest.error
  {
    match rest
    case Success(bytes) => Success([b] + bytes)
    case Failure(e) => Failure(e)
  }

  /** Converts C-style escaped text to bytes, or reports the first malformed
      escape sequence; no partial result is returned on failure. */
  function ByteStringFromEscapedString(text: ByteString): (r: Result<ByteString, EscapeError>)
    ensures r.Success? ==> |r.value| <= |text|
    decreases |text|
  {
    if text == [] then Success([])
    else if text[0] != '\\' then Cons(text[0], ByteStringFromEscapedString(text[1..]))
    else match ParseEscape(text)
      case Failure(e) => Failure(e)
      case Success(esc) => Cons(esc.value, ByteStringFromEscapedString(text[esc.length..]))
  }

  // ---------------------------------------------------------------- laws

  /** Decoding the encoder's text gives back exactly the original bytes,
      zero bytes and other control bytes included. */
  lemma RoundTrip(bytes: ByteString)
    ensures ByteStringFromEscapedString(EscapedStringFromByteString(bytes)) == Success(bytes)
  {
    RoundTripFrom(bytes, false);
  }

  lemma {:induction false} RoundTripFrom(bytes: ByteString, afterHex: bool)
    ensures ByteStringFromEscapedString(EscapeFrom(bytes, afterHex)) == Success(bytes)
    decreases |bytes|
  {
    if bytes != [] {
      var b := bytes[0];
      var nextHex := NeedsHexEscape(b, afterHex);
      var rest := EscapeFrom(bytes[1..], nextHex);
      RoundTripFrom(bytes[1..], nextHex);
      assert bytes == [b] + bytes[1..];
      assert EscapeFrom(bytes, afterHex) == EscapeByte(b, afterHex) + rest;
      if b == '\\' || b == '\r' || b == '\n' || b == '\t' {
        SimpleEscapeDecodes(b, rest);
      } else if nextHex {
        HexEscapeDecodes(b, rest);
      } else {
        LiteralByteDecodes(b, rest);
      }
    }
  }

  /** A byte other than the backslash stands for itself. */
  lemma LiteralByteDecodes(b: Octet, rest: ByteString)
    requires b != '\\'
    ensures ByteStringFromEscapedString([b] + rest) == Cons(b, ByteStringFromEscapedString(rest))
  {
    assert ([b] + rest)[1..] == rest;
  }

  /** A backslash and a simple escape letter decode to the byte the letter
      stands for, followed by the decoding of the rest. */
  lemma SimpleEscapeTextDecodes(c: Octet, rest: ByteString)
    requires IsSimpleEscape(c)
    ensures ByteStringFromEscapedString(['\\', c] + rest)
            == Cons(SimpleEscapeValue(c), ByteStringFromEscapedString(rest))
  {
    assert (['\\', c] + rest)[2..] == rest;
  }

  /** The two-character escapes the encoder writes for the backslash, `\r`,
      `\n` and `\t` decode to those bytes. */
  lemma SimpleEscapeDecodes(b: Octet, rest: ByteString)
    requires b == '\\' || b == '\r' || b == '\n' || b == '\t'
    ensures ByteStringFromEscapedString(EscapeByte(b, false) + rest) == Cons(b, ByteStringFromEscapedString(rest))
    ensures ByteStringFromEscapedString(EscapeByte(b, true) + rest) == Cons(b, ByteStringFromEscapedString(rest))
  {
    var c: Octet := if b == '\\' then '\\' else if b == '\r' then 'r' else if b == '\n' then 'n' else 't';
    assert EscapeByte(b, false) + rest == ['\\', c] + rest && EscapeByte(b, true) + rest == ['\\', c] + rest;
    assert IsSimpleEscape(c) && SimpleEscapeValue(c) == b;
    SimpleEscapeTextDecodes(c, rest);
  }

  /** `\xHH` for byte `b`, followed by text that does not start with a
      hexadecimal digit, decodes to `b` followed by that text's decoding. */
  lemma HexEscapeDecodes(b: Octet, rest: ByteString)
    requires rest != [] ==> !IsHexDigit(rest[0])
    ensures ByteStringFromEscapedString(['\\', 'x', HexDigit(b as int / 16), HexDigit(b as int % 16)] + rest)
            == Cons(b, ByteStringFromEscapedString(rest))
  {
    var t := ['\\', 'x', HexDigit(b as int / 16), HexDigit(b as int % 16)] + rest;
    HexEscapeParses(b, rest);
    assert t[4..] == rest;
  }

  /** `\xHH` for byte `b` is one escape of four characters standing for `b`,
      when no hexadecimal digit follows it. */
  lemma HexEscapeParses(b: Octet, rest: ByteString)
    requires rest != [] ==> !IsHexDigit(rest[0])
    ensures ParseEscape(['\\', 'x', HexDigit(b as int / 16), HexDigit(b as int % 16)] + rest)
            == Success(Escape(b, 4))
  {
    var hi, lo := HexDigit(b as int / 16), HexDigit(b as int % 16);
    var t := ['\\', 'x', hi, lo] + rest;
    assert t[2..] == [hi, lo] + rest;
    assert HexRunLength(t[2..]) == 2 by {
      assert t[2..][1..] == [lo] + rest;
      assert t[2..][1..][1..] == rest;
    }
    assert t[2..4] == [hi, lo];
    DigitsValueOfTwo([hi, lo], 16);
  }

  /** Text without a backslash decodes to itself: only escape sequences can
      make decoding fail or change a byte. */
  lemma {:induction false} LiteralTextDecodesToItself(text: ByteString)
    requires '\\' !in text
    ensures ByteStringFromEscapedString(text) == Success(text)
    decreases |text|
  {
    if text != [] {
      assert text[0] in text;
      assert text == [text[0]] + text[1..];
      LiteralTextDecodesToItself(text[1..]);
    }
  }

  /** Every decoding failure is caused by a backslash in the text. */
  lemma DecodeFailureNeedsBackslash(text: ByteString)
    requires ByteStringFromEscapedString(text).Failure?
    ensures '\\' in text
  {
    if '\\' !in text {
      LiteralTextDecodesToItself(text);
    }
  }

  /** A backslash at the very end of text that otherwise decodes is
      rejected: it cannot extend the escape before it, since it is no
      digit. */
  lemma {:induction false} TrailingBackslashRejected(text: ByteString)
    requires ByteStringFromEscapedString(text).Success?
    ensures ByteStringFromEscapedString(text + ['\\']) == Failure(TrailingBackslash)
    decreases |text|
  {
    var t := text + ['\\'];
    if text == [] {
      assert t == ['\\'];
    } else if text[0] != '\\' {
      assert t[0] == text[0] && t[1..] == text[1..] + ['\\'];
      TrailingBackslashRejected(text[1..]);
    } else {
      var esc := ParseEscape(text).value;
      ParseEscapeAppend(text);
      assert t[0] == '\\' && t[esc.length..] == text[esc.length..] + ['\\'];
      TrailingBackslashRejected(text[esc.length..]);
    }
  }

  /** An escape that parses is read the same with a backslash appended. */
  lemma ParseEscapeAppend(text: ByteString)
    requires text != [] && text[0] == '\\' && ParseEscape(text).Success?
    ensures ParseEscape(text + ['\\']) == ParseEscape(text)
  {
    var t := text + ['\\'];
    assert t[0] == '\\' && t[1] == text[1];
    if IsOctalDigit(text[1]) {
      OctalDigitsAppend(text);
    } else if text[1] == 'x' {
      HexDigitsAppend(text);
    }
  }

  /** The octal digits of an escape are the same with a backslash appended. */
  lemma OctalDigitsAppend(text: ByteString)
    requires |text| >= 2
    ensures var t := text + ['\\'];
            var n := OctalRunLength(text[1..], 3);
            OctalRunLength(t[1..], 3) == n && t[1..1 + n] == text[1..1 + n]
  {
    var t := text + ['\\'];
    assert t[1..] == text[1..] + ['\\'];
    OctalRunAppend(text[1..], 3, '\\');
  }

  /** The hexadecimal digits of an escape are the same with a backslash
      appended. */
  lemma HexDigitsAppend(text: ByteString)
    requires |text| >= 2
    ensures var t := text + ['\\'];
            var n := HexRunLength(text[2..]);
            HexRunLength(t[2..]) == n && t[2..2 + n] == text[2..2 + n]
  {
    var t := text + ['\\'];
    assert t[2..] == text[2..] + ['\\'];
    HexRunAppend(text[2..], '\\');
  }

  /** A backslash followed by a letter with no escape meaning is rejected. */
  lemma UnknownEscapeRejected(c: Octet, rest: ByteString)
    requires !IsSimpleEscape(c) && !IsOctalDigit(c) && c != 'x'
    ensures ByteStringFromEscapedString(['\\', c] + rest) == Failure(UnknownEscape(c))
  {
  }

  /** `\x` not followed by a hexadecimal digit is rejected. */
  lemma EmptyHexEscapeRejected(rest: ByteString)
    requires rest == [] || !IsHexDigit(rest[0])
    ensures ByteStringFromEscapedString(['\\', 'x'] + rest) == Failure(EmptyHexEscape)
  {
    assert (['\\', 'x'] + rest)[2..] == rest;
  }

  /** A hexadecimal escape takes every hexadecimal digit that follows it, so
      `\x100` stands for 256 and is rejected rather than read as `\x10`
      followed by `0`. */
  lemma LongHexEscapeRejected()
    ensures ByteStringFromEscapedString("\\x100") == Failure(EscapeOutOfRange)
  {
    var t: ByteString := "\\x100";
    assert t[2..] == "100";
    HexRunWhole("100");
    assert t[2..5] == "100";
    DigitsValueOfThree("100", 16);
    assert ParseEscape(t) == Failure(EscapeOutOfRange);
  }

  /** An octal escape takes at most three digits: `\1012` is `A` then `2`. */
  lemma OctalEscapeStopsAtThreeDigits()
    ensures ByteStringFromEscapedString("\\1012") == Success(['A', '2'])
  {
    var t: ByteString := "\\1012";
    OctalEscapeParses();
    var two: ByteString := "2";
    assert t[4..] == two;
    LiteralByteDecodes('2', []);
    assert two == ['2'] + [];
    assert ByteStringFromEscapedString(t) == Cons('A', ByteStringFromEscapedString(t[4..]));
    var expected: ByteString := ['A', '2'];
    assert ['A'] + ['2'] == expected;
  }

  /** `\101` followed by another octal digit is the escape for `A` alone. */
  lemma OctalEscapeParses()
    ensures ParseEscape("\\1012") == Success(Escape('A', 4))
  {
    var t: ByteString := "\\1012";
    assert t[1..] == "1012";
    OctalRunFull("1012", 3);
    assert t[1..4] == "101";
    DigitsValueOfThree("101", 8);
  }

  /** An octal escape above 255 is rejected. */
  lemma OctalEscapeOutOfRange()
    ensures ByteStringFromEscapedString("\\400") == Failure(EscapeOutOfRange)
  {
    var t: ByteString := "\\400";
    assert t[1..] == "400";
    OctalRunFull("400", 3);
    assert t[1..4] == "400";
    DigitsValueOfThree("400", 8);
  }

  /** Control bytes are written as two-digit hexadecimal escapes, and a
      hexadecimal digit right after one is escaped too. */
  lemma EncodeExample()
    ensures EscapedStringFromByteString(['\0', 'A', ' ']) == "\\x00\\x41 "
  {
    var bs: ByteString := ['\0', 'A', ' '];
    var nul: ByteString := "\\x00";
    var a: ByteString := "\\x41";
    assert EscapeByte('\0', false) == nul by {
      assert HexDigit(0) == '0';
    }
    assert EscapeByte('A', true) == a by {
      assert HexDigit(4) == '4' && HexDigit(1) == '1';
    }
    assert EscapeFrom([' '], false) == " " by {
      assert [' '][1..] == [];
    }
    assert EscapeFrom(bs[1..], true) == a + " " by {
      assert bs[1..] == ['A', ' '] && bs[1..][1..] == [' '];
    }
    assert EscapeFrom(bs, false) == nul + (a + " ");
  }

}

=== FILE: line_packets.dfy ===
/** Splitting a log entry into fixed-size line packets (`SplitEntryIntoLines`
    of the logging core). An entry's text is broken at each newline (`\r`,
    `\r\n` or `\n`) and wherever a line reaches `PacketTextLen` characters.
    The first packet of an entry is tagged `EntryFirstLine`, a packet that
    follows a newline `NewLine`, and a packet that continues a full line
    `LineContinuation`. Trailing empty packets are dropped, but every entry
    keeps at least one packet.

    One `char` of the sequences here is one C `char` (one byte) of the
    entry text, so the 127-character limit counts bytes as the buffer does.
    The per-entry metadata is opaque here: a value of type `M` copied into
    every packet. The packet's NUL-terminated `char` buffer is its `line`,
    at most `PacketTextLen` characters long. */
module LinePackets {

  datatype PacketState = EntryFirstLine | NewLine | LineContinuation

  /** Characters of text a packet holds (its buffer has one more, for the NUL). */
  const PacketTextLen: nat := 127

  datatype Packet<M> = Packet(state: PacketState, metadata: M, line: seq<char>)

  predicate IsNewlineChar(c: char) {
    c == '\r' || c == '\n'
  }

  predicate NoNewlineChar(s: seq<char>) {
    forall i :: 0 <= i < |s| ==> !IsNewlineChar(s[i])
  }

  /** The entry text is a C string: it ends at its first NUL, so it holds none. */
  predicate IsCString(text: seq<char>) {
    forall i :: 0 <= i < |text| ==> text[i] != '\0'
  }

  /** The text with every `\r` and `\n` removed: the reference for what the
      packets of an entry hold between them. */
  function RemoveNewlines(s: seq<char>): (t: seq<char>) {
    if s == [] then []
    else (if IsNewlineChar(s[0]) then [] else [s[0]]) + RemoveNewlines(s[1..])
  }

  /** The text of a packet sequence: its lines, one after another. */
  function Concat<M>(ps: seq<Packet<M>>): (text: seq<char>) {
    if ps == [] then [] else ps[0].line + Concat(ps[1..])
  }

  // ------------------------------------------------------------ one packet

  /** The result of filling one packet: the line, the text still to be
      split, and whether the line was ended by a newline sequence. */
  datatype LineCut = LineCut(line: seq<char>, rest: seq<char>, atNewline: bool)

  /** `cut` with `prefix` in front of its line. */
  function Prefixed(prefix: seq<char>, cut: LineCut): (c: LineCut) {
    cut.(line := prefix + cut.line)
  }

  /** Fills one packet from the head of `text` with at most `room` more
      characters: characters are copied until the text ends, the packet is
      full, or a newline sequence (`\r\n`, `\r` or `\n`) is met, which is
      consumed whole and not copied. */
  function CutLine(text: seq<char>, room: nat): (c: LineCut)
    ensures |c.rest| <= |text|
    ensures text != [] && room > 0 ==> |c.rest| < |text|
    decreases |text|
  {
    if text == [] || room == 0 then LineCut([], text, false)
    else if text[0] == '\r' then
      LineCut([], if |text| > 1 && text[1] == '\n' then text[2..] else text[1..], true)
    else if text[0] == '\n' then LineCut([], text[1..], true)
    else Prefixed([text[0]], CutLine(text[1..], room - 1))
  }

  /** The line fits the room and holds no newline character; it is shorter
      than the room when a newline sequence ended it, and fills the room when
      it stopped before the end of the text for any other reason. */
  lemma {:induction false} CutLineBounds(text: seq<char>, room: nat)
    ensures var c := CutLine(text, room);
            && |c.line| <= room && NoNewlineChar(c.line)
            && |c.line| + |c.rest| <= |text|
            && (c.atNewline ==> |c.line| < room)
            && (!c.atNewline && c.rest != [] ==> |c.line| == room)
    decreases |text|
  {
    if text != [] && room > 0 && !IsNewlineChar(text[0]) {
      var c := CutLine(text[1..], room - 1);
      CutLineBounds(text[1..], room - 1);
      assert CutLine(text, room) == Prefixed([text[0]], c);
      assert ([text[0]] + c.line)[0] == text[0];
      assert forall i :: 1 <= i < |[text[0]] + c.line| ==> ([text[0]] + c.line)[i] == c.line[i - 1];
    }
  }

  /** The length of the newline sequence at the head of `s`: two for
      `\r\n`, one for a lone `\r` or `\n`. */
  function NewlineLength(s: seq<char>): (n: nat)
    requires s != [] && IsNewlineChar(s[0])
    ensures 1 <= n <= |s|
    ensures n == 2 <==> s[0] == '\r' && |s| > 1 && s[1] == '\n'
  {
    if s[0] == '\r' && |s| > 1 && s[1] == '\n' then 2 else 1
  }

  /** Where a packet's cut falls in the text: the line is the head of the
      text; a line ended by a newline stops right before a newline sequence
      and the rest starts right after that sequence; any other line is
      followed directly by the rest. */
  lemma {:induction false} CutLineAt(text: seq<char>, room: nat)
    ensures CutFallsAt(text, CutLine(text, room))
    decreases |text|
  {
    if text != [] && room > 0 && !IsNewlineChar(text[0]) {
      var c := CutLine(text[1..], room - 1);
      CutLineAt(text[1..], room - 1);
      CutFallsAtCons(text, c);
      assert CutLine(text, room) == Prefixed([text[0]], c);
    }
  }

  /** The line is the head of the text; a line ended by a newline stops
      right before a newline sequence and `rest` starts right after it; any
      other line is followed directly by `rest`. */
  ghost predicate CutFallsAt(text: seq<char>, c: LineCut) {
    && |c.line| <= |text| && c.line == text[..|c.line|]
    && (c.atNewline ==>
          && |c.line| < |text| && IsNewlineChar(text[|c.line|])
          && c.rest == text[|c.line| + NewlineLength(text[|c.line|..])..])
    && (!c.atNewline ==> c.rest == text[|c.line|..])
  }

  /** A cut of the text after its first character, with that character put
      in front of its line, is a cut of the whole text. */
  lemma CutFallsAtCons(text: seq<char>, c: LineCut)
    requires text != [] && CutFallsAt(text[1..], c)
    ensures CutFallsAt(text, Prefixed([text[0]], c))
  {
    var k := |c.line|;
    assert [text[0]] + c.line == text[..k + 1] by {
      assert text[1..][..k] == text[1..k + 1];
    }
    assert text[1..][k..] == text[k + 1..];
    if c.atNewline {
      var n := NewlineLength(text[k + 1..]);
      assert text[1..][k + n..] == text[k + 1 + n..];
    }
  }

  /** Filling a packet loses only the newline sequence it consumes. */
  lemma {:induction false} CutLineKeepsText(text: seq<char>, room: nat)
    ensures RemoveNewlines(text) == CutLine(text, room).line + RemoveNewlines(CutLine(text, room).rest)
    decreases |text|
  {
    if text == [] || room == 0 {
    } else if IsNewlineChar(text[0]) {
      NewlineKeepsText(text, room);
    } else {
      CutLineKeepsText(text[1..], room - 1);
      CopyKeepsText(text, room);
    }
  }

  /** Copying the first character of `text` into the packet keeps it in front
      of the text. */
  lemma CopyKeepsText(text: seq<char>, room: nat)
    requires text != [] && room > 0 && !IsNewlineChar(text[0])
    requires RemoveNewlines(text[1..])
          == CutLine(text[1..], room - 1).line + RemoveNewlines(CutLine(text[1..], room - 1).rest)
    ensures RemoveNewlines(text) == CutLine(text, room).line + RemoveNewlines(CutLine(text, room).rest)
  {
    var c := CutLine(text[1..], room - 1);
    assert CutLine(text, room) == Prefixed([text[0]], c);
    assert RemoveNewlines(text) == [text[0]] + RemoveNewlines(text[1..]);
    assert [text[0]] + (c.line + RemoveNewlines(c.rest)) == ([text[0]] + c.line) + RemoveNewlines(c.rest);
  }

  /** A packet ended at once by a newline sequence is empty, and the newline
      sequence it consumes holds no text. */
  lemma NewlineKeepsText(text: seq<char>, room: nat)
    requires text != [] && room > 0 && IsNewlineChar(text[0])
    ensures CutLine(text, room).line == []
    ensures RemoveNewlines(text) == RemoveNewlines(CutLine(text, room).rest)
  {
    assert RemoveNewlines(text) == RemoveNewlines(text[1..]);
    if text[0] == '\r' && |text| > 1 && text[1] == '\n' {
      assert text[1..][1..] == text[2..];
      assert RemoveNewlines(text[1..]) == RemoveNewlines(text[2..]);
    }
  }

  // ------------------------------------------------------------ all packets

  /** The packets the splitting loop emits for `text`, before trailing empty
      packets are dropped; the first is tagged `state`. */
  function RawPackets<M>(text: seq<char>, state: PacketState, m: M): (ps: seq<Packet<M>>)
    ensures |ps| >= 1 && ps[0].state == state
    decreases |text|
  {
    var c := CutLine(text, PacketTextLen);
    [Packet(state, m, c.line)]
      + (if c.rest == [] then []
         else RawPackets(c.rest, if c.atNewline then NewLine else LineContinuation, m))
  }

  /** A packet of the entry with metadata `m`: it carries `m`, and its line
      fits the buffer and holds no newline character. */
  ghost predicate WellShaped<M>(p: Packet<M>, m: M) {
    |p.line| <= PacketTextLen && NoNewlineChar(p.line) && p.metadata == m
  }

  /** Every emitted packet is well shaped, and none after the first is
      tagged `EntryFirstLine`. */
  lemma {:induction false} RawPacketsShape<M>(text: seq<char>, state: PacketState, m: M)
    ensures forall i :: 0 <= i < |RawPackets(text, state, m)| ==> WellShaped(RawPackets(text, state, m)[i], m)
    ensures forall i :: 1 <= i < |RawPackets(text, state, m)| ==> RawPackets(text, state, m)[i].state != EntryFirstLine
    decreases |text|
  {
    var c := CutLine(text, PacketTextLen);
    var ps := RawPackets(text, state, m);
    CutLineBounds(text, PacketTextLen);
    if c.rest != [] {
      var next := if c.atNewline then NewLine else LineContinuation;
      var tail := RawPackets(c.rest, next, m);
      RawPacketsShape(c.rest, next, m);
      assert ps == [ps[0]] + tail;
      forall i | 1 <= i < |ps|
        ensures WellShaped(ps[i], m) && ps[i].state != EntryFirstLine
      {
        assert ps[i] == tail[i - 1];
        assert WellShaped(tail[i - 1], m);
        assert tail[0].state == next;
      }
    }
  }

  /** The emitted packets hold exactly the text without its newlines. */
  lemma {:induction false} RawPacketsKeepText<M>(text: seq<char>, state: PacketState, m: M)
    ensures Concat(RawPackets(text, state, m)) == RemoveNewlines(text)
    decreases |text|
  {
    var c := CutLine(text, PacketTextLen);
    var ps := RawPackets(text, state, m);
    CutLineKeepsText(text, PacketTextLen);
    if c.rest == [] {
      assert ps == [Packet(state, m, c.line)];
      assert Concat(ps) == c.line + Concat(ps[1..]);
    } else {
      var next := if c.atNewline then NewLine else LineContinuation;
      RawPacketsKeepText(c.rest, next, m);
      assert ps[1..] == RawPackets(c.rest, next, m);
    }
  }

  /** A packet is a continuation exactly when the packet before it is full;
      every other packet after the first starts a new line. */
  lemma {:induction false} RawPacketsContinuation<M>(text: seq<char>, state: PacketState, m: M)
    ensures forall i :: 1 <= i < |RawPackets(text, state, m)| ==>
              (RawPackets(text, state, m)[i].state == LineContinuation
               <==> |RawPackets(text, state, m)[i - 1].line| == PacketTextLen)
    decreases |text|
  {
    var c := CutLine(text, PacketTextLen);
    var ps := RawPackets(text, state, m);
    if c.rest != [] {
      var next := if c.atNewline then NewLine else LineContinuation;
      var tail := RawPackets(c.rest, next, m);
      RawPacketsContinuation(c.rest, next, m);
      CutLineBounds(text, PacketTextLen);
      assert ps == [Packet(state, m, c.line)] + tail;
      forall i | 1 <= i < |ps|
        ensures ps[i].state == LineContinuation <==> |ps[i - 1].line| == PacketTextLen
      {
        assert ps[i] == tail[i - 1];
        if i >= 2 {
          assert ps[i - 1] == tail[i - 2];
          assert tail[i - 1].state == LineContinuation <==> |tail[i - 2].line| == PacketTextLen;
        } else {
          assert tail[0].state == next;
          assert ps[0].line == c.line;
        }
      }
    }
  }

  // ---------------------------------------------------- dropping empty tails

  /** One past the index of the last packet at or after `from` whose line
      is non-empty, or 0 if there is none. */
  function PastLastNonEmpty<M>(ps: seq<Packet<M>>, from: nat): (k: nat)
    requires from <= |ps|
    ensures k == 0 || (from < k <= |ps| && ps[k - 1].line != [])
    ensures forall i :: from <= i < |ps| && k <= i ==> ps[i].line == []
    decreases |ps|
  {
    if |ps| == from then 0
    else if ps[|ps| - 1].line != [] then |ps|
    else PastLastNonEmpty(ps[..|ps| - 1], from)
  }

  /** The count of packets kept: up to the last non-empty one, at least one. */
  function KeptCount(k: nat): (n: nat)
    ensures n >= 1 && k <= n
    ensures k != 0 ==> n == k
  {
    if k == 0 then 1 else k
  }

  /** Drops the trailing packets whose lines are empty, but keeps at least
      one packet: the text they hold is unchanged, and the last of several
      kept packets is non-empty. */
  function DropTrailingEmpty<M>(ps: seq<Packet<M>>): (r: seq<Packet<M>>)
    requires |ps| >= 1
    ensures 1 <= |r| <= |ps| && r == ps[..|r|]
    ensures Concat(r) == Concat(ps)
    ensures |r| > 1 ==> r[|r| - 1].line != []
    ensures forall i :: |r| <= i < |ps| ==> ps[i].line == []
  {
    var n := KeptCount(PastLastNonEmpty(ps, 0));
    ConcatDropsEmptyTail(ps, n);
    ps[..n]
  }

  /** The packets of one entry whose text is `text`, each carrying `m`: they
      hold the text without its newlines, and the last of several is never
      empty. Their shape is stated by `SplitShape`. */
  function Split<M>(m: M, text: seq<char>): (ps: seq<Packet<M>>)
    requires IsCString(text)
    ensures |ps| >= 1 && ps[0].state == EntryFirstLine
    ensures Concat(ps) == RemoveNewlines(text)
    ensures |ps| > 1 ==> ps[|ps| - 1].line != []
  {
    RawPacketsKeepText(text, EntryFirstLine, m);
    DropTrailingEmpty(RawPackets(text, EntryFirstLine, m))
  }

  /** Every packet of an entry carries its metadata and fits the buffer
      without a newline; only the first is tagged `EntryFirstLine`, and a
      packet is a `LineContinuation` exactly when the one before it is full. */
  lemma SplitShape<M>(m: M, text: seq<char>)
    requires IsCString(text)
    ensures var ps := Split(m, text);
            && (forall i :: 1 <= i < |ps| ==> ps[i].state == NewLine || ps[i].state == LineContinuation)
            && (forall i :: 0 <= i < |ps| ==> WellShaped(ps[i], m))
            && (forall i :: 1 <= i < |ps| ==> (ps[i].state == LineContinuation <==> |ps[i - 1].line| == PacketTextLen))
  {
    var raw := RawPackets(text, EntryFirstLine, m);
    RawPacketsShape(text, EntryFirstLine, m);
    RawPacketsContinuation(text, EntryFirstLine, m);
    PrefixKeepsShape(raw, m, |Split(m, text)|);
  }

  /** A non-empty prefix of an entry's packets keeps their shape. */
  lemma PrefixKeepsShape<M>(ps: seq<Packet<M>>, m: M, n: nat)
    requires 1 <= n <= |ps| && ps[0].state == EntryFirstLine
    requires forall i :: 1 <= i < |ps| ==> ps[i].state != EntryFirstLine
    requires forall i :: 0 <= i < |ps| ==> WellShaped(ps[i], m)
    requires forall i :: 1 <= i < |ps| ==> (ps[i].state == LineContinuation <==> |ps[i - 1].line| == PacketTextLen)
    ensures ps[..n][0].state == EntryFirstLine
    ensures forall i :: 1 <= i < n ==> ps[..n][i].state == NewLine || ps[..n][i].state == LineContinuation
    ensures forall i :: 0 <= i < n ==> WellShaped(ps[..n][i], m)
    ensures forall i :: 1 <= i < n ==> (ps[..n][i].state == LineContinuation <==> |ps[..n][i - 1].line| == PacketTextLen)
  {
  }

  /** Dropping packets whose lines are all empty does not change the text. */
  lemma {:induction false} ConcatDropsEmptyTail<M>(ps: seq<Packet<M>>, n: nat)
    requires n <= |ps|
    requires forall i :: n <= i < |ps| ==> ps[i].line == []
    ensures Concat(ps[..n]) == Concat(ps)
    decreases n
  {
    if n == 0 {
      EmptyLinesConcat(ps);
    } else {
      ConcatDropsEmptyTail(ps[1..], n - 1);
      assert ps[1..][..n - 1] == ps[..n][1..];
    }
  }

  /** Packets whose lines are all empty hold no text. */
  lemma {:induction false} EmptyLinesConcat<M>(ps: seq<Packet<M>>)
    requires forall i :: 0 <= i < |ps| ==> ps[i].line == []
    ensures Concat(ps) == []
    decreases |ps|
  {
    if ps != [] {
      EmptyLinesConcat(ps[1..]);
    }
  }

  // ---------------------------------------------------- rendering back to text

  /** The line break a packet in state `state` stands for: one before a
      packet that starts a new line, none before the entry's first line or a
      continuation. */
  function Lead(state: PacketState): (lead: seq<char>) {
    if state == NewLine then "\n" else []
  }

  /** The packets rendered back to text, each line preceded by its break. */
  function Render<M>(ps: seq<Packet<M>>): (text: seq<char>) {
    if ps == [] then [] else Lead(ps[0].state) + ps[0].line + Render(ps[1..])
  }

  /** The text with each line ending (`\r\n`, `\r` or `\n`) written as `\n`. */
  function Normalise(s: seq<char>): (t: seq<char>)
    ensures s != [] ==> t != []
    decreases |s|
  {
    if s == [] then []
    else if IsNewlineChar(s[0]) then "\n" + Normalise(s[NewlineLength(s)..])
    else [s[0]] + Normalise(s[1..])
  }

  /** The text without its trailing line breaks. */
  function TrimNewlines(s: seq<char>): (t: seq<char>) {
    if s != [] && s[|s| - 1] == '\n' then TrimNewlines(s[..|s| - 1]) else s
  }

  /** The text without one trailing line break, if it has one. */
  function Chop(s: seq<char>): (t: seq<char>) {
    if s != [] && s[|s| - 1] == '\n' then s[..|s| - 1] else s
  }

  /** Rendering an entry's packets gives back its text with every line
      ending written as `\n` and the trailing line breaks removed: a
      `NewLine` packet starts exactly where the text has a line break. */
  lemma SplitRendersText<M>(m: M, text: seq<char>)
    requires IsCString(text)
    ensures Render(Split(m, text)) == TrimNewlines(Normalise(text))
  {
    var kept := Split(m, text);
    var breaks := DroppedBreaks(m, text);
    KeptRenderEnd(m, text);
    TrimBreaks(Render(kept), breaks);
    RawPacketsRender(text, EntryFirstLine, m);
    assert Lead(EntryFirstLine) + Chop(Normalise(text)) == Chop(Normalise(text));
    TrimChop(Normalise(text));
  }

  /** The packets dropped from the end of an entry render as line breaks
      only, after the packets kept. */
  lemma DroppedBreaks<M>(m: M, text: seq<char>) returns (breaks: seq<char>)
    requires IsCString(text)
    ensures Render(RawPackets(text, EntryFirstLine, m)) == Render(Split(m, text)) + breaks
    ensures forall i :: 0 <= i < |breaks| ==> breaks[i] == '\n'
  {
    var raw := RawPackets(text, EntryFirstLine, m);
    assert Split(m, text) == DropTrailingEmpty(raw);
    breaks := DropTrailingEmptyRender(raw);
  }

  /** Dropping the trailing empty packets drops only line breaks from the
      rendering. */
  lemma DropTrailingEmptyRender<M>(ps: seq<Packet<M>>) returns (breaks: seq<char>)
    requires |ps| >= 1
    ensures Render(ps) == Render(DropTrailingEmpty(ps)) + breaks
    ensures forall i :: 0 <= i < |breaks| ==> breaks[i] == '\n'
  {
    var kept := DropTrailingEmpty(ps);
    var dropped := ps[|kept|..];
    assert ps == kept + dropped;
    forall i | 0 <= i < |dropped|
      ensures dropped[i].line == []
    {
      assert dropped[i] == ps[|kept| + i];
    }
    RenderAppend(kept, dropped);
    EmptyPacketsRenderBreaks(dropped);
    breaks := Render(dropped);
  }

  /** The packets kept for an entry do not render with a trailing break:
      the last one is either the entry's only, empty, first packet, or
      ends in a character that is not a newline. */
  lemma KeptRenderEnd<M>(m: M, text: seq<char>)
    requires IsCString(text)
    ensures var r := Render(Split(m, text)); r == [] || r[|r| - 1] != '\n'
  {
    var kept := Split(m, text);
    var n := |kept|;
    SplitShape(m, text);
    if kept[n - 1].line != [] {
      assert WellShaped(kept[n - 1], m);
      RenderEndsWithLine(kept);
    } else {
      assert n == 1;
      assert Render(kept) == Lead(EntryFirstLine) + [] + Render(kept[1..]);
    }
  }

  /** The packets emitted for a text render as its normalised text, without
      one final line break, behind the break of the first packet's state. */
  lemma {:induction false} RawPacketsRender<M>(text: seq<char>, state: PacketState, m: M)
    ensures Render(RawPackets(text, state, m)) == Lead(state) + Chop(Normalise(text))
    decreases |text|
  {
    var c := CutLine(text, PacketTextLen);
    var next := if c.atNewline then NewLine else LineContinuation;
    var gap := Lead(next);
    var rendered := if c.rest == [] then [] else Render(RawPackets(c.rest, next, m));
    RawPacketsRenderCons(text, state, m);
    assert Render(RawPackets(text, state, m)) == Lead(state) + c.line + rendered;
    if c.rest != [] {
      RawPacketsRender(c.rest, next, m);
    }
    assert rendered == (if Normalise(c.rest) == [] then [] else gap + Chop(Normalise(c.rest)));
    CutNormalise(text);
    CutLineBounds(text, PacketTextLen);
    ChopLine(c.line, gap, Normalise(c.rest));
    AppendAssociates(Lead(state), c.line, rendered);
  }

  /** The rendering of the emitted packets: the first packet's break and
      line, then the rendering of the packets for the rest of the text. */
  lemma RawPacketsRenderCons<M>(text: seq<char>, state: PacketState, m: M)
    ensures var c := CutLine(text, PacketTextLen);
            var next := if c.atNewline then NewLine else LineContinuation;
            Render(RawPackets(text, state, m))
            == Lead(state) + c.line + (if c.rest == [] then [] else Render(RawPackets(c.rest, next, m)))
  {
    var c := CutLine(text, PacketTextLen);
    var ps := RawPackets(text, state, m);
    var next := if c.atNewline then NewLine else LineContinuation;
    assert ps[0] == Packet(state, m, c.line);
    assert ps[1..] == if c.rest == [] then [] else RawPackets(c.rest, next, m);
  }

  /** Normalising the text of one packet: its line, the line break it ends
      with if any, then the normalised rest. */
  lemma CutNormalise(text: seq<char>)
    ensures var c := CutLine(text, PacketTextLen);
            Normalise(text) == c.line + (Lead(if c.atNewline then NewLine else LineContinuation) + Normalise(c.rest))
  {
    var c := CutLine(text, PacketTextLen);
    var tail := CutLineParts(text);
    NormaliseParts(text, c.line, tail, c.rest, c.atNewline);
  }

  /** The packet's line, followed by `tail`, makes up the text; `tail` is
      the line break and the rest, or just the rest when no break ends the
      line. */
  lemma CutLineParts(text: seq<char>) returns (tail: seq<char>)
    ensures var c := CutLine(text, PacketTextLen);
            && NoNewlineChar(c.line) && text == c.line + tail
            && (c.atNewline ==> tail != [] && IsNewlineChar(tail[0]) && c.rest == tail[NewlineLength(tail)..])
            && (!c.atNewline ==> c.rest == tail)
  {
    var c := CutLine(text, PacketTextLen);
    CutLineAt(text, PacketTextLen);
    CutLineBounds(text, PacketTextLen);
    tail := text[|c.line|..];
  }

  /** Normalising a line without newline characters, followed by a line
      break and `rest` (or just by `rest`). */
  lemma NormaliseParts(text: seq<char>, line: seq<char>, tail: seq<char>, rest: seq<char>, atNewline: bool)
    requires NoNewlineChar(line) && text == line + tail
    requires atNewline ==> tail != [] && IsNewlineChar(tail[0]) && rest == tail[NewlineLength(tail)..]
    requires !atNewline ==> rest == tail
    ensures Normalise(text) == line + (Lead(if atNewline then NewLine else LineContinuation) + Normalise(rest))
  {
    NormaliseAfterLine(line, tail);
    if atNewline {
      NormaliseAtBreak(tail, rest);
    } else {
      assert Lead(LineContinuation) + Normalise(rest) == Normalise(rest);
    }
  }

  /** A line break at the head of the text is written as one `\n`. */
  lemma NormaliseAtBreak(tail: seq<char>, rest: seq<char>)
    requires tail != [] && IsNewlineChar(tail[0]) && rest == tail[NewlineLength(tail)..]
    ensures Normalise(tail) == "\n" + Normalise(rest)
  {
  }

  /** Chopping the final break of a packet's line, its break and the rest:
      the break goes when nothing follows it, and otherwise the rest's
      final break goes. */
  lemma ChopLine(line: seq<char>, gap: seq<char>, rest: seq<char>)
    requires NoNewlineChar(line)
    requires gap == [] || gap == "\n"
    ensures Chop(line + (gap + rest)) == line + (if rest == [] then [] else gap + Chop(rest))
  {
    if rest == [] {
      assert gap + rest == gap;
      if gap == [] {
        assert line + gap == line;
      } else {
        assert (line + gap)[..|line + gap| - 1] == line;
      }
    } else {
      ChopAfter(line + gap, rest);
      AppendAssociates(line, gap, rest);
      AppendAssociates(line, gap, Chop(rest));
    }
  }

  /** A line without newline characters is kept as it is in front of the
      normalised rest. */
  lemma {:induction false} NormaliseAfterLine(line: seq<char>, tail: seq<char>)
    requires NoNewlineChar(line)
    ensures Normalise(line + tail) == line + Normalise(tail)
    decreases |line|
  {
    if line != [] {
      var whole := line + tail;
      NormaliseAfterLine(line[1..], tail);
      assert whole[0] == line[0] && !IsNewlineChar(whole[0]);
      assert whole[1..] == line[1..] + tail;
      assert Normalise(whole) == [line[0]] + Normalise(whole[1..]);
      AppendAssociates([line[0]], line[1..], Normalise(tail));
      assert [line[0]] + line[1..] == line;
    } else {
      assert line + tail == tail;
    }
  }

  /** Only the final part decides the chopped line break. */
  lemma ChopAfter(a: seq<char>, b: seq<char>)
    requires b != []
    ensures Chop(a + b) == a + Chop(b)
  {
    if b[|b| - 1] == '\n' {
      assert (a + b)[..|a + b| - 1] == a + b[..|b| - 1];
    }
  }

  /** Trimming all trailing line breaks after chopping one trims them all. */
  lemma TrimChop(s: seq<char>)
    ensures TrimNewlines(Chop(s)) == TrimNewlines(s)
  {
  }

  /** Line breaks after text that does not end in one are all trimmed. */
  lemma {:induction false} TrimBreaks(a: seq<char>, b: seq<char>)
    requires a == [] || a[|a| - 1] != '\n'
    requires forall i :: 0 <= i < |b| ==> b[i] == '\n'
    ensures TrimNewlines(a + b) == a
    decreases |b|
  {
    if b != [] {
      assert (a + b)[..|a + b| - 1] == a + b[..|b| - 1];
      TrimBreaks(a, b[..|b| - 1]);
    } else {
      assert a + b == a;
    }
  }

  /** Rendering distributes over concatenation of packet sequences. */
  lemma {:induction false} RenderAppend<M>(a: seq<Packet<M>>, b: seq<Packet<M>>)
    ensures Render(a + b) == Render(a) + Render(b)
    decreases |a|
  {
    if a == [] {
      assert a + b == b;
    } else {
      RenderAppend(a[1..], b);
      assert (a + b)[1..] == a[1..] + b;
      AppendAssociates(Lead(a[0].state) + a[0].line, Render(a[1..]), Render(b));
    }
  }

  /** Packets with empty lines render as line breaks only. */
  lemma {:induction false} EmptyPacketsRenderBreaks<M>(ps: seq<Packet<M>>)
    requires forall i :: 0 <= i < |ps| ==> ps[i].line == []
    ensures forall i :: 0 <= i < |Render(ps)| ==> Render(ps)[i] == '\n'
    decreases |ps|
  {
    if ps != [] {
      EmptyPacketsRenderBreaks(ps[1..]);
    }
  }

  /** The rendering ends with the last packet's line when that line is not
      empty and holds no newline character, so it does not end in a break. */
  lemma RenderEndsWithLine<M>(ps: seq<Packet<M>>)
    requires ps != [] && ps[|ps| - 1].line != [] && NoNewlineChar(ps[|ps| - 1].line)
    ensures Render(ps) != [] && Render(ps)[|Render(ps)| - 1] != '\n'
  {
    var last := ps[|ps| - 1];
    assert ps == ps[..|ps| - 1] + [last];
    RenderAppend(ps[..|ps| - 1], [last]);
    assert Render([last]) == Lead(last.state) + last.line + Render([last][1..]);
    assert Render([last]) == Lead(last.state) + last.line;
  }

  // ------------------------------------------------------ appending entries

  /** `SplitEntryIntoLines` as written: the entry's packets are appended to
      `lines`, but the index of the last non-empty packet starts at 0 and is
      raised to 1 when the entry has no text, as though `lines` had been
      empty on entry. */
  function SplitEntryIntoLinesAsWritten<M>(lines: seq<Packet<M>>, m: M, text: seq<char>): (r: seq<Packet<M>>)
    requires IsCString(text)
    ensures var all := lines + RawPackets(text, EntryFirstLine, m);
            && 1 <= |r| <= |all| && r == all[..|r|]
            && forall i :: |r| <= i < |all| && |lines| <= i ==> all[i].line == []
  {
    var all := lines + RawPackets(text, EntryFirstLine, m);
    all[..KeptCount(PastLastNonEmpty(all, |lines|))]
  }

  /** `SplitEntryIntoLines` as intended: the entry's packets are appended and
      the packets already in `lines` are left alone. */
  function SplitEntryIntoLines<M>(lines: seq<Packet<M>>, m: M, text: seq<char>): (r: seq<Packet<M>>)
    requires IsCString(text)
    ensures |r| > |lines| && r[..|lines|] == lines
    ensures r[|lines|].state == EntryFirstLine
    ensures Concat(r[|lines|..]) == RemoveNewlines(text)
    ensures r[|lines|..] == Split(m, text)
  {
    var r := lines + Split(m, text);
    assert r[|lines|..] == Split(m, text);
    r
  }

  /** On an empty vector, which is how entries are split, the code as written
      and the intended behaviour agree. */
  lemma AsWrittenAgreesOnEmptyVector<M>(m: M, text: seq<char>)
    requires IsCString(text)
    ensures SplitEntryIntoLinesAsWritten([], m, text) == SplitEntryIntoLines([], m, text)
  {
    var raw := RawPackets(text, EntryFirstLine, m);
    assert [] + raw == raw;
  }

  /** Counting non-empty packets after `|lines|` in `lines + ps` is counting
      them in `ps`, shifted by `|lines|`. */
  lemma {:induction false} PastLastNonEmptyShift<M>(lines: seq<Packet<M>>, ps: seq<Packet<M>>)
    ensures PastLastNonEmpty(lines + ps, |lines|)
            == if PastLastNonEmpty(ps, 0) == 0 then 0 else |lines| + PastLastNonEmpty(ps, 0)
    decreases |ps|
  {
    if ps != [] {
      var all := lines + ps;
      assert all[..|all| - 1] == lines + ps[..|ps| - 1];
      PastLastNonEmptyShift(lines, ps[..|ps| - 1]);
    }
  }

  /** The packets hold no text exactly when none of them is non-empty. */
  lemma NoTextIffNoNonEmptyPacket<M>(ps: seq<Packet<M>>)
    ensures Concat(ps) == [] <==> PastLastNonEmpty(ps, 0) == 0
  {
    var k := PastLastNonEmpty(ps, 0);
    if k == 0 {
      EmptyLinesConcat(ps);
    } else {
      ConcatHasLine(ps, k - 1);
    }
  }

  /** A non-empty line makes the concatenation non-empty. */
  lemma {:induction false} ConcatHasLine<M>(ps: seq<Packet<M>>, i: nat)
    requires i < |ps| && ps[i].line != []
    ensures Concat(ps) != []
    decreases i
  {
    if i > 0 {
      ConcatHasLine(ps[1..], i - 1);
    }
  }

  /** The code as written appends correctly whenever the entry has some text
      other than newlines. */
  lemma AsWrittenCorrectWithText<M>(lines: seq<Packet<M>>, m: M, text: seq<char>)
    requires IsCString(text)
    requires RemoveNewlines(text) != []
    ensures SplitEntryIntoLinesAsWritten(lines, m, text) == SplitEntryIntoLines(lines, m, text)
  {
    var raw := RawPackets(text, EntryFirstLine, m);
    var k := PastLastNonEmpty(raw, 0);
    assert k != 0 by {
      RawPacketsKeepText(text, EntryFirstLine, m);
      NoTextIffNoNonEmptyPacket(raw);
    }
    assert SplitEntryIntoLinesAsWritten(lines, m, text) == (lines + raw)[..|lines| + k] by {
      PastLastNonEmptyShift(lines, raw);
    }
    assert SplitEntryIntoLines(lines, m, text) == lines + raw[..k];
    TakeAfterPrefix(lines, raw, k);
  }

  /** Taking past a prefix keeps the prefix and takes from what follows. */
  lemma TakeAfterPrefix<T>(a: seq<T>, b: seq<T>, k: nat)
    requires k <= |b|
    ensures (a + b)[..|a| + k] == a + b[..k]
  {
  }

  /** When the entry has no text but newlines and `lines` already holds
      packets, the code as written keeps only the first of them: the
      packets after it are erased and the entry gets no packet. */
  lemma AsWrittenLosesPacketsWithoutText<M>(lines: seq<Packet<M>>, m: M, text: seq<char>)
    requires IsCString(text)
    requires RemoveNewlines(text) == [] && |lines| >= 1
    ensures SplitEntryIntoLinesAsWritten(lines, m, text) == lines[..1]
  {
    var raw := RawPackets(text, EntryFirstLine, m);
    RawPacketsKeepText(text, EntryFirstLine, m);
    NoTextIffNoNonEmptyPacket(raw);
    PastLastNonEmptyShift(lines, raw);
  }

  /** The concrete case: two packets already queued and an empty entry. The
      code as written leaves one packet; the intended result has three. */
  lemma AsWrittenCounterexample(m: int)
    ensures var lines := [Packet(EntryFirstLine, m, "a"), Packet(EntryFirstLine, m, "b")];
            SplitEntryIntoLinesAsWritten(lines, m, "") == [Packet(EntryFirstLine, m, "a")]
            && SplitEntryIntoLines(lines, m, "") == lines + [Packet(EntryFirstLine, m, "")]
  {
    var lines := [Packet(EntryFirstLine, m, "a"), Packet(EntryFirstLine, m, "b")];
    AsWrittenLosesPacketsWithoutText(lines, m, "");
    assert RawPackets("", EntryFirstLine, m) == [Packet(EntryFirstLine, m, "")];
  }

  // ---------------------------------------------------------------- examples

  /** `\r\n` is one newline: `a\r\nb` gives the packets `a` and `b`. */
  lemma CrLfIsOneNewline(m: int)
    ensures Split(m, "a\r\nb") == [Packet(EntryFirstLine, m, "a"), Packet(NewLine, m, "b")]
  {
    var t := "a\r\nb";
    assert t[1..] == "\r\nb" && t[1..][1..] == "\nb" && t[1..][2..] == "b";
    assert CutLine(t[1..], PacketTextLen - 1) == LineCut([], "b", true);
    assert CutLine(t, PacketTextLen) == LineCut("a", "b", true);
    assert "b"[1..] == [];
    assert CutLine("b", PacketTextLen) == LineCut("b", [], false);
    var raw := RawPackets(t, EntryFirstLine, m);
    assert raw == [Packet(EntryFirstLine, m, "a"), Packet(NewLine, m, "b")];
    assert raw[..2] == raw;
  }

  /** Trailing newlines leave no empty packets, and empty text one empty packet. */
  lemma TrailingNewlinesDropped(m: int)
    ensures Split(m, "a\n\n") == [Packet(EntryFirstLine, m, "a")]
    ensures Split(m, "") == [Packet(EntryFirstLine, m, "")]
  {
    var t := "a\n\n";
    assert t[1..] == "\n\n" && t[1..][1..] == "\n" && "\n"[1..] == [];
    assert CutLine(t[1..], PacketTextLen - 1) == LineCut([], "\n", true);
    assert CutLine(t, PacketTextLen) == LineCut("a", "\n", true);
    assert CutLine("\n", PacketTextLen) == LineCut([], [], true);
    var raw := RawPackets(t, EntryFirstLine, m);
    assert raw == [Packet(EntryFirstLine, m, "a"), Packet(NewLine, m, [])];
    assert raw[..1] == [Packet(EntryFirstLine, m, "a")];
  }

  // ------------------------------------------------------- imperative loop

  /** Filling a packet from `text[p..]` has reached position `q` with
      `line` copied so far: the packet is `line` in front of what filling
      from `q`, with the room left, gives. */
  ghost predicate Filling(text: seq<char>, p: nat, q: nat, line: seq<char>) {
    p <= q <= |text| && |line| <= PacketTextLen
    && CutLine(text[p..], PacketTextLen) == Prefixed(line, CutLine(text[q..], PacketTextLen - |line|))
  }

  /** One step of filling a packet at position `q` of `text`, when the
      character there is copied. */
  lemma CutLineCopies(text: seq<char>, p: nat, q: nat, line: seq<char>)
    requires Filling(text, p, q, line)
    requires q < |text| && |line| < PacketTextLen && !IsNewlineChar(text[q])
    ensures Filling(text, p, q + 1, line + [text[q]])
  {
    var t := text[q..];
    assert t[0] == text[q] && t[1..] == text[q + 1..];
    CutLineCons(t, PacketTextLen - |line|);
    AppendAssociates(line, [text[q]], CutLine(text[q + 1..], PacketTextLen - |line| - 1).line);
  }

  /** A character other than a newline goes into the packet when there is
      room for it. */
  lemma CutLineCons(text: seq<char>, room: nat)
    requires text != [] && room > 0 && !IsNewlineChar(text[0])
    ensures CutLine(text, room) == Prefixed([text[0]], CutLine(text[1..], room - 1))
  {
  }

  /** One step of filling a packet at position `q` of `text`, when a newline
      sequence starts there: the packet ends with `line`, and the sequence,
      `\r`, `\r\n` or `\n`, is consumed. */
  lemma CutLineBreaks(text: seq<char>, p: nat, q: nat, line: seq<char>)
    requires Filling(text, p, q, line)
    requires q < |text| && |line| < PacketTextLen && IsNewlineChar(text[q])
    ensures var end := if text[q] == '\r' && q + 1 < |text| && text[q + 1] == '\n' then q + 2 else q + 1;
            end <= |text| && CutLine(text[p..], PacketTextLen) == LineCut(line, text[end..], true)
  {
    var t := text[q..];
    assert t[1..] == text[q + 1..];
    if q + 1 < |text| {
      assert t[1] == text[q + 1];
      assert t[2..] == text[q + 2..];
    }
    var end := if text[q] == '\r' && q + 1 < |text| && text[q + 1] == '\n' then q + 2 else q + 1;
    assert CutLine(t, PacketTextLen - |line|) == LineCut([], text[end..], true);
    assert line + [] == line;
  }

  /** Filling a packet stops, with `line`, when the text or the room runs out. */
  lemma CutLineStops(text: seq<char>, p: nat, q: nat, line: seq<char>)
    requires Filling(text, p, q, line)
    requires q == |text| || |line| == PacketTextLen
    ensures CutLine(text[p..], PacketTextLen) == LineCut(line, text[q..], false)
  {
    assert line + [] == line;
  }

  /** Fills one packet from `entryText[p..]`, as the inner loop of the
      logging core does: returns the line, the position after the consumed
      text, and whether a newline sequence ended the line. */
  method FillPacket(entryText: seq<char>, p: nat) returns (line: seq<char>, q: nat, atNewline: bool)
    requires p <= |entryText|
    ensures p <= q <= |entryText|
    ensures CutLine(entryText[p..], PacketTextLen) == LineCut(line, entryText[q..], atNewline)
  {
    line := [];
    q := p;
    atNewline := false;
    assert [] + CutLine(entryText[p..], PacketTextLen).line == CutLine(entryText[p..], PacketTextLen).line;
    while q < |entryText| && |line| < PacketTextLen
      invariant p <= q <= |entryText|
      invariant |line| <= PacketTextLen
      invariant !atNewline
      invariant Filling(entryText, p, q, line)
      decreases |entryText| - q
    {
      if IsNewlineChar(entryText[q]) {
        // `\r\n` is consumed whole; a lone `\r` or `\n` is one character.
        CutLineBreaks(entryText, p, q, line);
        if entryText[q] == '\r' && q + 1 < |entryText| && entryText[q + 1] == '\n' {
          q := q + 2;
        } else {
          q := q + 1;
        }
        atNewline := true;
        break;
      }
      CutLineCopies(entryText, p, q, line);
      line := line + [entryText[q]];
      q := q + 1;
    }
    if !atNewline {
      CutLineStops(entryText, p, q, line);
    }
  }

  /** Filling a packet from `text` that leaves `rest` unread: the packets of
      `text` are that packet followed by the packets of `rest`. */
  lemma RawPacketsCons<M>(text: seq<char>, rest: seq<char>, line: seq<char>, atNewline: bool, state: PacketState, m: M)
    requires CutLine(text, PacketTextLen) == LineCut(line, rest, atNewline)
    ensures rest != [] ==>
      RawPackets(text, state, m) == [Packet(state, m, line)] + RawPackets(rest, if atNewline then NewLine else LineContinuation, m)
    ensures rest == [] ==> RawPackets(text, state, m) == [Packet(state, m, line)]
  {
  }

  /** The splitting loop of the logging core: appends to `lines` one packet
      per filled line of `entryText`, and tracks one past the last non-empty
      packet appended, as an index into the whole vector (0 while there is
      none). */
  method EmitPackets<M>(lines: seq<Packet<M>>, m: M, entryText: seq<char>)
    returns (out: seq<Packet<M>>, pastLastNonEmptyIndex: nat)
    ensures out == lines + RawPackets(entryText, EntryFirstLine, m)
    ensures pastLastNonEmptyIndex == PastLastNonEmpty(out, |lines|)
  {
    ghost var whole := lines + RawPackets(entryText, EntryFirstLine, m);
    out := lines;
    var p := 0;
    var nextState := EntryFirstLine;
    pastLastNonEmptyIndex := 0;
    var more := true;
    while more
      invariant p <= |entryText|
      invariant |lines| <= |out|
      invariant more ==> out + RawPackets(entryText[p..], nextState, m) == whole
      invariant !more ==> out == whole
      invariant pastLastNonEmptyIndex == PastLastNonEmpty(out, |lines|)
      decreases |entryText| - p, more
    {
      var line, q, atNewline := FillPacket(entryText, p);
      var packet := Packet(nextState, m, line);
      var after := if atNewline then NewLine else LineContinuation;
      assert q < |entryText| ==> out + [packet] + RawPackets(entryText[q..], after, m) == whole by {
        RawPacketsCons(entryText[p..], entryText[q..], line, atNewline, nextState, m);
        if q < |entryText| {
          AppendAssociates(out, [packet], RawPackets(entryText[q..], after, m));
        }
      }
      assert q == |entryText| ==> out + [packet] == whole by {
        RawPacketsCons(entryText[p..], entryText[q..], line, atNewline, nextState, m);
      }
      PastLastNonEmptyAppend(out, |lines|, packet);
      out := out + [packet];
      if |line| > 0 {
        pastLastNonEmptyIndex := |out|;
      }
      nextState := after;
      p := q;
      more := p < |entryText|;
    }
  }

  /** `SplitEntryIntoLines` written as the single pass over the text that the
      logging core performs, appending to `lines`, then dropping trailing
      empty packets but keeping at least one. */
  method SplitEntryIntoLinesLoop<M>(lines: seq<Packet<M>>, m: M, entryText: seq<char>)
    returns (out: seq<Packet<M>>)
    requires IsCString(entryText)
    ensures out == SplitEntryIntoLinesAsWritten(lines, m, entryText)
    ensures lines == [] ==> out == Split(m, entryText)
  {
    var pastLastNonEmptyIndex;
    out, pastLastNonEmptyIndex := EmitPackets(lines, m, entryText);
    if pastLastNonEmptyIndex == 0 {
      pastLastNonEmptyIndex := pastLastNonEmptyIndex + 1;
    }
    out := out[..pastLastNonEmptyIndex];
    if lines == [] {
      AsWrittenAgreesOnEmptyVector(m, entryText);
    }
  }

  lemma AppendAssociates<T>(a: seq<T>, b: seq<T>, c: seq<T>)
    ensures a + b + c == a + (b + c)
  {
  }

  /** Appending a packet moves the last non-empty index to it exactly when its
      line is non-empty. */
  lemma PastLastNonEmptyAppend<M>(ps: seq<Packet<M>>, from: nat, p: Packet<M>)
    requires from <= |ps|
    ensures PastLastNonEmpty(ps + [p], from) == if p.line != [] then |ps| + 1 else PastLastNonEmpty(ps, from)
  {
    assert (ps + [p])[..|ps|] == ps;
  }
}

=== FILE: outcomes.dfy ===
/** Failure-carrying result types shared by the serial protocol modules:
    the C++ code returns an integer status and fills an out-parameter, which
    is modelled as a value that is either a result or an error. */
module Outcomes {

  /** A value that may be absent (a null `std::auto_ptr`, a failed lookup). */
  datatype Option<+T> = None | Some(value: T)

  /** Either a successful value or the error that prevented it. */
  datatype Result<+T, +E> = Success(value: T) | Failure(error: E)
}

=== FILE: response_detection.dfy ===
/** Response detectors of the user-defined serial adapter: the strategies
    that decide when a complete reply has arrived on the serial port and what
    that reply is.

    The port is abstracted as the sequence of bytes that arrive after a
    command is sent and before the port's read timeout elapses. A detector
    either finds a complete reply at the head of that sequence or reports
    that none arrived in time. */
module ResponseDetection {

  import opened Outcomes
  import opened Bytes
  import EscapeCodec

  /** The closed family of detectors. */
  datatype ResponseDetector =
    | Ignoring
      // the device sends no reply worth reading
    | Terminator(terminator: ByteString, terminatorName: ByteString)
      // the reply ends with `terminator`; `terminatorName` is its escaped spelling
    | FixedLength(byteCount: nat)
      // the reply is exactly `byteCount` bytes

  /** Names that select each kind: `Ignore`, `Terminator:<escaped bytes>`,
      `Fixed:<decimal count>`. */
  const IgnoreName: ByteString := "Ignore"
  const TerminatorPrefix: ByteString := "Terminator:"
  const FixedPrefix: ByteString := "Fixed:"

  /** A terminator detector carries a non-empty terminator spelled by its
      name. The terminator is held as a C string, so it has no NUL byte. */
  predicate WellFormed(d: ResponseDetector) {
    d.Terminator? ==>
      && d.terminator != [] && '\0' !in d.terminator
      && EscapeCodec.ByteStringFromEscapedString(d.terminatorName) == Success(d.terminator)
  }

  // ------------------------------------------------------------- construction

  /** The ignoring detector, if `name` selects it. */
  function IgnoringNewByName(name: ByteString): (r: Option<ResponseDetector>)
    ensures r.Some? <==> name == IgnoreName
    ensures r.Some? ==> r.value == Ignoring
  {
    if name == IgnoreName then Some(Ignoring) else None
  }

  /** A terminator detector, if `name` is `Terminator:` followed by escaped
      text that decodes to a non-empty terminator. The terminator is passed
      on as a C string, so one holding a NUL byte is refused. */
  function TerminatorNewByName(name: ByteString): (r: Option<ResponseDetector>)
    ensures r.Some? <==>
      && StartsWith(name, TerminatorPrefix)
      && var decoded := EscapeCodec.ByteStringFromEscapedString(name[|TerminatorPrefix|..]);
         decoded.Success? && decoded.value != [] && '\0' !in decoded.value
    ensures r.Some? ==> r.value.Terminator? && WellFormed(r.value)
    ensures r.Some? ==> r.value.terminatorName == name[|TerminatorPrefix|..]
  {
    if StartsWith(name, TerminatorPrefix) then
      var spelling := name[|TerminatorPrefix|..];
      match EscapeCodec.ByteStringFromEscapedString(spelling)
      case Success(t) => if t == [] || '\0' in t then None else Some(Terminator(t, spelling))
      case Failure(_) => None
    else None
  }

  /** A fixed-length detector, if `name` is `Fixed:` followed by a decimal count. */
  function FixedLengthNewByName(name: ByteString): (r: Option<ResponseDetector>)
    ensures r.Some? <==> StartsWith(name, FixedPrefix) && ParseDecimal(name[|FixedPrefix|..]).Some?
    ensures r.Some? ==> r.value == FixedLength(ParseDecimal(name[|FixedPrefix|..]).value)
  {
    if StartsWith(name, FixedPrefix) then
      match ParseDecimal(name[|FixedPrefix|..])
      case Some(n) => Some(FixedLength(n))
      case None => None
    else None
  }

  /** Builds the detector a configuration name selects; `None` (a null
      pointer in the adapter) when the name selects none. */
  function NewByName(name: ByteString): (r: Option<ResponseDetector>)
    ensures r.Some? ==> WellFormed(r.value)
    ensures r.Some? ==>
      r == IgnoringNewByName(name) || r == TerminatorNewByName(name) || r == FixedLengthNewByName(name)
    ensures r.Some? ==> (r.value.Ignoring? <==> name == IgnoreName)
    ensures r.Some? ==> (r.value.Terminator? <==> StartsWith(name, TerminatorPrefix))
    ensures r.Some? ==> (r.value.FixedLength? <==> StartsWith(name, FixedPrefix))
    ensures r.None? <==>
      IgnoringNewByName(name).None? && TerminatorNewByName(name).None? && FixedLengthNewByName(name).None?
  {
    KindPrefixesDistinct(name);
    if IgnoringNewByName(name).Some? then IgnoringNewByName(name)
    else if TerminatorNewByName(name).Some? then TerminatorNewByName(name)
    else FixedLengthNewByName(name)
  }

  /** No name selects two kinds: the three name forms are told apart by
      their first character. */
  lemma KindPrefixesDistinct(name: ByteString)
    ensures name == IgnoreName ==> !StartsWith(name, TerminatorPrefix) && !StartsWith(name, FixedPrefix)
    ensures StartsWith(name, TerminatorPrefix) ==> !StartsWith(name, FixedPrefix)
  {
    if StartsWith(name, TerminatorPrefix) {
      assert name[0] == TerminatorPrefix[0];
    }
    if name == IgnoreName {
      assert name[0] == 'I';
    }
  }

  /** The configuration name of a detector: the kind's name or prefix, then
      the terminator's escaped spelling or the count in decimal. */
  function GetMethodName(d: ResponseDetector): (name: ByteString)
    ensures d.Ignoring? <==> name == IgnoreName
    ensures d.Terminator? ==>
      StartsWith(name, TerminatorPrefix) && name[|TerminatorPrefix|..] == d.terminatorName
    ensures d.FixedLength? ==>
      StartsWith(name, FixedPrefix) && ParseDecimal(name[|FixedPrefix|..]) == Some(d.byteCount)
  {
    match d
    case Ignoring => IgnoreName
    case Terminator(_, spelling) =>
      var name := TerminatorPrefix + spelling;
      assert name[..|TerminatorPrefix|] == TerminatorPrefix && name[|TerminatorPrefix|..] == spelling;
      assert name[0] != IgnoreName[0];
      name
    case FixedLength(n) =>
      var name := FixedPrefix + DecimalString(n);
      assert name[..|FixedPrefix|] == FixedPrefix && name[|FixedPrefix|..] == DecimalString(n);
      assert name[0] != IgnoreName[0];
      DecimalRoundTrip(n);
      name
  }

  /** Rebuilding a detector from its own name gives the same detector, so the
      name shown for the current detector always selects it again. */
  lemma NameRoundTrip(d: ResponseDetector)
    requires WellFormed(d)
    ensures NewByName(GetMethodName(d)) == Some(d)
  {
    var name := GetMethodName(d);
    match d
    case Ignoring =>
    case Terminator(t, spelling) =>
      assert name[..|TerminatorPrefix|] == TerminatorPrefix;
      assert name[|TerminatorPrefix|..] == spelling;
      assert name != IgnoreName by { assert name[0] != IgnoreName[0]; }
    case FixedLength(n) =>
      assert name[..|FixedPrefix|] == FixedPrefix;
      assert name[|FixedPrefix|..] == DecimalString(n);
      DecimalRoundTrip(n);
      assert name != IgnoreName by { assert name[0] != IgnoreName[0]; }
      assert !StartsWith(name, TerminatorPrefix) by { assert name[0] != TerminatorPrefix[0]; }
  }

  /** The detector chosen by a name keeps that name, except that a
      fixed-length count is shown without leading zeros. */
  lemma NewByNameKeepsName(name: ByteString)
    requires NewByName(name).Some?
    ensures NewByName(name).value.FixedLength? || GetMethodName(NewByName(name).value) == name
  {
    var d := NewByName(name).value;
    if d.Terminator? {
      assert name == name[..|TerminatorPrefix|] + name[|TerminatorPrefix|..];
    }
  }

  /** The ignoring detector's configuration. */
  lemma IgnoreSelected()
    ensures NewByName("Ignore") == Some(Ignoring)
  {
  }

  /** A terminator is written in escaped form after `Terminator:`. */
  lemma CrLfTerminatorSelected()
    ensures NewByName("Terminator:\\r\\n") == Some(Terminator("\r\n", "\\r\\n"))
  {
    var name: ByteString := "Terminator:\\r\\n";
    var lf: ByteString := "\\n";
    assert name[..|TerminatorPrefix|] == TerminatorPrefix;
    assert name[|TerminatorPrefix|..] == ['\\', 'r'] + lf;
    var crlf: ByteString := "\r\n";
    assert EscapeCodec.ByteStringFromEscapedString(lf) == Success(crlf[1..]) by {
      EscapeCodec.SimpleEscapeTextDecodes('n', []);
      assert lf == ['\\', 'n'] + [];
      assert EscapeCodec.SimpleEscapeValue('n') == '\n';
      assert EscapeCodec.ByteStringFromEscapedString([]) == Success([]);
      assert crlf[1..] == ['\n'] + [];
    }
    assert EscapeCodec.ByteStringFromEscapedString(['\\', 'r'] + lf) == Success(crlf) by {
      EscapeCodec.SimpleEscapeTextDecodes('r', lf);
      assert EscapeCodec.SimpleEscapeValue('r') == '\r';
      assert crlf == ['\r'] + crlf[1..];
    }
    assert '\0' !in crlf;
    assert name != IgnoreName by { assert name[0] != IgnoreName[0]; }
  }

  /** A name that selects no detector is refused. */
  lemma UnknownNamesRefused()
    ensures NewByName("Fixed:") == None
    ensures NewByName("Fixed:x") == None
    ensures NewByName("Terminator:") == None
    ensures NewByName("Terminator:\\") == None
    ensures NewByName("Ignore:") == None
  {
    var f: ByteString := "Fixed:";
    assert f[..|FixedPrefix|] == FixedPrefix && f[|FixedPrefix|..] == [];
    var fx: ByteString := "Fixed:x";
    assert fx[..|FixedPrefix|] == FixedPrefix && fx[|FixedPrefix|..] == "x";
    assert !IsDecimalDigit(fx[|FixedPrefix|..][0]);
    var t: ByteString := "Terminator:";
    assert t[..|TerminatorPrefix|] == TerminatorPrefix && t[|TerminatorPrefix|..] == [];
    var tb: ByteString := "Terminator:\\";
    assert tb[..|TerminatorPrefix|] == TerminatorPrefix && tb[|TerminatorPrefix|..] == "\\";
    var ig: ByteString := "Ignore:";
    assert ig != IgnoreName by { assert |ig| != |IgnoreName|; }
    assert !StartsWith(ig, TerminatorPrefix) && !StartsWith(ig, FixedPrefix) by {
      assert ig[0] != TerminatorPrefix[0] && ig[0] != FixedPrefix[0];
    }
  }

  // ------------------------------------------------------------------ receive

  /** The shortest length `m >= k` such that the first `m` incoming bytes end
      with the terminator, scanning one received byte at a time. */
  function FirstTerminated(incoming: ByteString, terminator: ByteString, k: nat): (r: Option<nat>)
    requires k <= |incoming|
    ensures r.Some? ==> k <= r.value <= |incoming| && EndsWith(incoming[..r.value], terminator)
    ensures r.Some? ==> forall j :: k <= j < r.value ==> !EndsWith(incoming[..j], terminator)
    ensures r.None? ==> forall j :: k <= j <= |incoming| ==> !EndsWith(incoming[..j], terminator)
    decreases |incoming| - k
  {
    if EndsWith(incoming[..k], terminator) then Some(k)
    else if k == |incoming| then None
    else FirstTerminated(incoming, terminator, k + 1)
  }

  /** Receives one reply from the bytes that arrive before the timeout, or
      `None` when the reply is not complete by then. */
  function Recv(d: ResponseDetector, incoming: ByteString): (r: Option<ByteString>)
    ensures r.Some? ==> StartsWith(incoming, r.value)
    ensures d.Ignoring? ==> r == Some([])
    ensures d.FixedLength? ==> (r.Some? <==> d.byteCount <= |incoming|)
    ensures d.FixedLength? && r.Some? ==> |r.value| == d.byteCount
    ensures d.Terminator? && r.Some? ==> EndsWith(r.value, d.terminator)
    ensures d.Terminator? && r.Some? ==>
      forall j :: 0 <= j < |r.value| ==> !EndsWith(incoming[..j], d.terminator)
    ensures d.Terminator? && r.None? ==>
      forall j :: 0 <= j <= |incoming| ==> !EndsWith(incoming[..j], d.terminator)
  {
    match d
    case Ignoring => Some([])
    case Terminator(t, _) =>
      (match FirstTerminated(incoming, t, 0)
       case Some(m) => Some(incoming[..m])
       case None => None)
    case FixedLength(n) => if n <= |incoming| then Some(incoming[..n]) else None
  }

  /** A terminator-delimited reply is the incoming bytes up to and including
      the first occurrence of the terminator; the bytes after it are not
      part of this reply. */
  lemma TerminatedReply(t: ByteString, reply: ByteString, later: ByteString)
    requires EndsWith(reply, t)
    requires forall j :: 0 <= j < |reply| ==> !EndsWith(reply[..j], t)
    ensures Recv(Terminator(t, EscapeCodec.EscapedStringFromByteString(t)), reply + later) == Some(reply)
  {
    var incoming := reply + later;
    assert incoming[..|reply|] == reply;
    forall j | 0 <= j <= |reply|
      ensures incoming[..j] == reply[..j]
    {
    }
    assert EndsWith(incoming[..|reply|], t);
    var m := FirstTerminated(incoming, t, 0);
    assert m.Some?;
    assert m.value <= |reply|;
    assert m.value == |reply|;
  }

  /** The `\r\n` example: the reply `OK\r\n` is read up to its terminator. */
  lemma CrLfReply(later: ByteString)
    ensures Recv(Terminator("\r\n", "\\r\\n"), "OK\r\n" + later) == Some("OK\r\n")
  {
    var reply: ByteString := "OK\r\n";
    var t: ByteString := "\r\n";
    assert EndsWith(reply, t) by { assert reply[2..] == t; }
    forall j | 0 <= j < |reply|
      ensures !EndsWith(reply[..j], t)
    {
      if j == 2 {
        assert reply[..2][0] == 'O';
      } else if j == 3 {
        assert reply[..3][1] == 'K';
      }
    }
    TerminatedReply(t, reply, later);
    var incoming := reply + later;
    assert Recv(Terminator(t, "\\r\\n"), incoming)
        == Recv(Terminator(t, EscapeCodec.EscapedStringFromByteString(t)), incoming);
  }
}

=== FILE: serial_channel.dfy ===
/** The command channel and lifecycle shared by every user-defined serial
    device (the `UserDefSerialBase` class template): sending a command,
    receiving the reply through the configured response detector, matching
    it against the expected reply or against several alternatives, the
    busy-time bookkeeping, and initialization and shutdown.

    The host's serial port becomes a `Line` value: whether the write is
    accepted, and the bytes that arrive before the read timeout. Time is a
    natural number supplied by the caller. */
module SerialChannel {

  import opened Outcomes
  import opened Bytes
  import opened ResponseDetection

  /** The status an operation returns when it does not succeed. */
  datatype Error =
    | ConfigError                                             // bad configuration value or position
    | PortError                                               // the port refused the write
    | TimeoutError                                            // the reply was not complete before the timeout
    | ResponseMismatch(expected: seq<ByteString>, actual: ByteString)  // a reply that matches no expected one

  /** The serial port during one exchange. */
  datatype Line = Line(writeOk: bool, incoming: ByteString)

  /** The base device state. */
  datatype Channel = Channel(
    port: ByteString,
    initialized: bool,
    lastActionTime: nat,
    binaryMode: bool,
    asciiTerminator: ByteString,
    responseDetector: ResponseDetector,
    initializeCommand: ByteString,
    initializeResponse: ByteString,
    shutdownCommand: ByteString,
    shutdownResponse: ByteString)

  /** The outcome of an operation on a device of type `D`: the device
      afterwards, the byte strings handed to the port for writing, in order,
      and the status (with a value of type `T` on success). */
  datatype Step<D, T> = Step(device: D, written: seq<ByteString>, status: Result<T, Error>)

  /** Two channels agree on everything configured before initialization;
      only the lifecycle flag and the time of the last action may differ. */
  predicate SameConfiguration(a: Channel, b: Channel) {
    a.(initialized := b.initialized, lastActionTime := b.lastActionTime) == b
  }

  /** How an operation at time `now` moves the time of the last action: to
      `now` exactly when it wrote something and the port accepted the write,
      which starts the busy interval, and not at all otherwise. */
  predicate ClockRule(before: Channel, after: Channel, written: seq<ByteString>, line: Line, now: nat) {
    after.lastActionTime == if written != [] && line.writeOk then now else before.lastActionTime
  }

  // -------------------------------------------------------------------- busy

  /** Marks the start of an action. */
  function StartBusy(ch: Channel, now: nat): (ch': Channel)
    ensures SameConfiguration(ch, ch') && ch'.initialized == ch.initialized
    ensures ch'.lastActionTime == now
  {
    ch.(lastActionTime := now)
  }

  /** The device is busy until `settle` time units after the last action;
      a clock reading before the last action counts as busy. */
  function Busy(ch: Channel, now: nat, settle: nat): (busy: bool)
    ensures busy <==> now < ch.lastActionTime + settle
    ensures settle > 0 && now <= ch.lastActionTime ==> busy
  {
    now - ch.lastActionTime < settle
  }

  /** Busy status depends on the time of the last action and nothing else. */
  lemma BusyOnlyFromLastActionTime(a: Channel, b: Channel, now: nat, settle: nat)
    requires a.lastActionTime == b.lastActionTime
    ensures Busy(a, now, settle) <==> Busy(b, now, settle)
  {
  }

  /** After `StartBusy` at time `t` the device is busy exactly for the
      settle interval that follows. */
  lemma StartBusyWindow(ch: Channel, t: nat, now: nat, settle: nat)
    requires t <= now
    ensures Busy(StartBusy(ch, t), now, settle) <==> now < t + settle
  {
  }

  // ---------------------------------------------------------------- exchange

  /** The bytes put on the wire for `command`: in ASCII mode the configured
      terminator is appended, in binary mode the command goes as it is. */
  function WireBytes(ch: Channel, command: ByteString): (bytes: ByteString)
    ensures StartsWith(bytes, command)
    ensures ch.binaryMode ==> bytes == command
    ensures !ch.binaryMode ==> bytes[|command|..] == ch.asciiTerminator
  {
    if ch.binaryMode then command else command + ch.asciiTerminator
  }

  /** Writes one command; a successful write starts the busy interval. */
  function Send(ch: Channel, command: ByteString, line: Line, now: nat): (s: Step<Channel, ()>)
    ensures SameConfiguration(ch, s.device) && s.device.initialized == ch.initialized
    ensures s.written == [WireBytes(ch, command)]
    ensures s.status.Success? <==> line.writeOk
    ensures s.status.Failure? ==> s.status.error == PortError && s.device == ch
    ensures s.status.Success? ==> s.device.lastActionTime == now
    ensures ClockRule(ch, s.device, s.written, line, now)
  {
    if !line.writeOk then Step(ch, [WireBytes(ch, command)], Failure(PortError))
    else Step(StartBusy(ch, now), [WireBytes(ch, command)], Success(()))
  }

  /** Sends `command` and receives one reply through the response detector. */
  function Exchange(ch: Channel, command: ByteString, line: Line, now: nat): (s: Step<Channel, ByteString>)
    ensures SameConfiguration(ch, s.device) && s.device.initialized == ch.initialized
    ensures s.written == [WireBytes(ch, command)]
    ensures ClockRule(ch, s.device, s.written, line, now)
    ensures !line.writeOk <==> s.status == Failure(PortError)
    ensures s.status.Success? <==> line.writeOk && Recv(ch.responseDetector, line.incoming).Some?
    ensures s.status.Success? ==> s.status.value == Recv(ch.responseDetector, line.incoming).value
    ensures s.status.Failure? ==> s.status.error == PortError || s.status.error == TimeoutError
  {
    var sent := Send(ch, command, line, now);
    if sent.status.Failure? then Step(sent.device, sent.written, Failure(PortError))
    else match Recv(ch.responseDetector, line.incoming)
      case None => Step(sent.device, sent.written, Failure(TimeoutError))
      case Some(reply) => Step(sent.device, sent.written, Success(reply))
  }

  /** Sends `command` and succeeds only if the reply is exactly
      `expectedResponse`. */
  function SendRecv(ch: Channel, command: ByteString, expectedResponse: ByteString, line: Line, now: nat)
    : (s: Step<Channel, ()>)
    ensures SameConfiguration(ch, s.device) && s.device.initialized == ch.initialized
    ensures s.written == [WireBytes(ch, command)]
    ensures ClockRule(ch, s.device, s.written, line, now)
    ensures s.status.Success? <==>
      line.writeOk && Recv(ch.responseDetector, line.incoming) == Some(expectedResponse)
    ensures !line.writeOk ==> s.status == Failure(PortError)
    ensures line.writeOk && Recv(ch.responseDetector, line.incoming).None? ==> s.status == Failure(TimeoutError)
    ensures line.writeOk && Recv(ch.responseDetector, line.incoming).Some?
            && Recv(ch.responseDetector, line.incoming).value != expectedResponse ==>
      s.status == Failure(ResponseMismatch([expectedResponse], Recv(ch.responseDetector, line.incoming).value))
  {
    var x := Exchange(ch, command, line, now);
    match x.status
    case Failure(e) => Step(x.device, x.written, Failure(e))
    case Success(reply) =>
      if reply == expectedResponse then Step(x.device, x.written, Success(()))
      else Step(x.device, x.written, Failure(ResponseMismatch([expectedResponse], reply)))
  }

  /** The index of the first alternative equal to `reply`. */
  function FirstMatch(alternatives: seq<ByteString>, reply: ByteString): (r: Option<nat>)
    ensures r.Some? ==> r.value < |alternatives| && alternatives[r.value] == reply
    ensures r.Some? ==> forall j :: 0 <= j < r.value ==> alternatives[j] != reply
    ensures r.None? <==> reply !in alternatives
  {
    if alternatives == [] then None
    else if alternatives[0] == reply then Some(0)
    else match FirstMatch(alternatives[1..], reply)
      case Some(k) => Some(k + 1)
      case None => None
  }

  /** Sends `command` once, receives one reply and returns the index of the
      first alternative it equals. */
  function SendQueryRecvAlternative(ch: Channel, command: ByteString, responseAlts: seq<ByteString>,
                                    line: Line, now: nat): (s: Step<Channel, nat>)
    ensures SameConfiguration(ch, s.device) && s.device.initialized == ch.initialized
    ensures s.written == [WireBytes(ch, command)]
    ensures ClockRule(ch, s.device, s.written, line, now)
    ensures s.status.Success? ==> s.status.value < |responseAlts|
    ensures s.status.Success? ==>
      line.writeOk && Recv(ch.responseDetector, line.incoming) == Some(responseAlts[s.status.value])
    ensures s.status.Success? ==> forall j :: 0 <= j < s.status.value ==> responseAlts[j] != responseAlts[s.status.value]
    ensures s.status.Failure? <==>
      !line.writeOk || Recv(ch.responseDetector, line.incoming).None?
      || Recv(ch.responseDetector, line.incoming).value !in responseAlts
    ensures !line.writeOk ==> s.status == Failure(PortError)
    ensures line.writeOk && Recv(ch.responseDetector, line.incoming).None? ==> s.status == Failure(TimeoutError)
    ensures line.writeOk && Recv(ch.responseDetector, line.incoming).Some?
            && Recv(ch.responseDetector, line.incoming).value !in responseAlts ==>
      s.status == Failure(ResponseMismatch(responseAlts, Recv(ch.responseDetector, line.incoming).value))
  {
    var x := Exchange(ch, command, line, now);
    match x.status
    case Failure(e) => Step(x.device, x.written, Failure(e))
    case Success(reply) =>
      match FirstMatch(responseAlts, reply)
      case Some(k) => Step(x.device, x.written, Success(k))
      case None => Step(x.device, x.written, Failure(ResponseMismatch(responseAlts, reply)))
  }

  // --------------------------------------------------------------- lifecycle

  /** A channel as constructed: not initialized, never used, with a
      detector of the kind a configuration name selects. */
  function NewChannel(port: ByteString, binaryMode: bool, asciiTerminator: ByteString,
                      responseDetector: ResponseDetector,
                      initializeCommand: ByteString, initializeResponse: ByteString,
                      shutdownCommand: ByteString, shutdownResponse: ByteString): (ch: Channel)
    requires ResponseDetection.WellFormed(responseDetector)
    ensures !ch.initialized && ch.lastActionTime == 0
    ensures ch.responseDetector == responseDetector && ch.binaryMode == binaryMode
  {
    Channel(port, false, 0, binaryMode, asciiTerminator, responseDetector,
            initializeCommand, initializeResponse, shutdownCommand, shutdownResponse)
  }

  /** Selects the response detector by its configuration name. This is a
      pre-initialization setting, which the host refuses to change on an
      initialized device. A name that selects no detector is refused and
      the current detector kept. */
  function SetResponseDetectionMethod(ch: Channel, name: ByteString): (r: Result<Channel, Error>)
    requires !ch.initialized
    ensures r.Success? <==> NewByName(name).Some?
    ensures r.Success? ==> r.value == ch.(responseDetector := NewByName(name).value)
    ensures r.Success? ==> GetMethodName(r.value.responseDetector) == name || r.value.responseDetector.FixedLength?
    ensures r.Failure? ==> r.error == ConfigError
  {
    match NewByName(name)
    case None => Failure(ConfigError)
    case Some(d) =>
      NewByNameKeepsName(name);
      Success(ch.(responseDetector := d))
  }

  /** Initializes the device: when an initialization command is configured
      (non-empty), it must be answered with the initialization response;
      any failure leaves the device uninitialized. Initializing an
      initialized device does nothing. */
  function Initialize(ch: Channel, line: Line, now: nat): (s: Step<Channel, ()>)
    ensures SameConfiguration(ch, s.device)
    ensures ClockRule(ch, s.device, s.written, line, now)
    ensures ch.initialized ==> s == Step(ch, [], Success(()))
    ensures s.device.initialized <==> ch.initialized || s.status.Success?
    ensures !ch.initialized && ch.initializeCommand == [] ==> s.status.Success? && s.written == []
    ensures !ch.initialized && ch.initializeCommand != [] ==>
      s.written == [WireBytes(ch, ch.initializeCommand)]
      && (s.status.Success? <==> line.writeOk && Recv(ch.responseDetector, line.incoming) == Some(ch.initializeResponse))
      && s.status == SendRecv(ch, ch.initializeCommand, ch.initializeResponse, line, now).status
  {
    if ch.initialized then Step(ch, [], Success(()))
    else if ch.initializeCommand == [] then Step(ch.(initialized := true), [], Success(()))
    else
      var x := SendRecv(ch, ch.initializeCommand, ch.initializeResponse, line, now);
      if x.status.Success? then Step(x.device.(initialized := true), x.written, x.status)
      else x
  }

  /** Shuts the device down: when a shutdown command is configured it is
      sent and its reply checked, and the result reported, but the device
      leaves the initialized state whatever the reply. Shutting down a
      device that is not initialized does nothing, so a second shutdown
      sends nothing. */
  function Shutdown(ch: Channel, line: Line, now: nat): (s: Step<Channel, ()>)
    ensures SameConfiguration(ch, s.device)
    ensures ClockRule(ch, s.device, s.written, line, now)
    ensures !s.device.initialized
    ensures !ch.initialized ==> s == Step(ch, [], Success(()))
    ensures ch.initialized && ch.shutdownCommand == [] ==> s.status.Success? && s.written == []
    ensures ch.initialized && ch.shutdownCommand != [] ==>
      s.written == [WireBytes(ch, ch.shutdownCommand)]
      && (s.status.Success? <==> line.writeOk && Recv(ch.responseDetector, line.incoming) == Some(ch.shutdownResponse))
      && s.status == SendRecv(ch, ch.shutdownCommand, ch.shutdownResponse, line, now).status
  {
    if !ch.initialized then Step(ch, [], Success(()))
    else if ch.shutdownCommand == [] then Step(ch.(initialized := false), [], Success(()))
    else
      var x := SendRecv(ch, ch.shutdownCommand, ch.shutdownResponse, line, now);
      Step(x.device.(initialized := false), x.written, x.status)
  }

  /** Shutting down twice writes the shutdown command at most once, and the
      second shutdown neither writes nor fails. */
  lemma ShutdownTwiceSendsOnce(ch: Channel, line1: Line, line2: Line, t1: nat, t2: nat)
    ensures var first := Shutdown(ch, line1, t1);
            var second := Shutdown(first.device, line2, t2);
            |first.written| + |second.written| <= 1
            && second == Step(first.device, [], Success(()))
  {
  }

  // --------------------------------------------------------------- examples

  /** Alternatives are compared in order: a reply equal to the first
      alternative gives index 0, and a reply equal to none is a mismatch. */
  lemma QueryExamples(ch: Channel, a: ByteString, b: ByteString, c: ByteString, now: nat)
    requires ch.responseDetector.FixedLength? && ch.responseDetector.byteCount == |a|
    requires |c| == |a| && c != a && c != b
    ensures SendQueryRecvAlternative(ch, [], [a, b], Line(true, a), now).status == Success(0)
    ensures SendQueryRecvAlternative(ch, [], [a, b], Line(true, c), now).status
            == Failure(ResponseMismatch([a, b], c))
  {
    assert a[..|a|] == a;
    assert c[..|c|] == c;
  }
}

=== FILE: serial_shutter.dfy ===
/** The user-defined serial shutter: a two-state device built on the shared
    command channel, with one command/response pair for opening, one for
    closing, and an optional query that reads the state back. */
module SerialShutter {

  import opened Outcomes
  import opened Bytes
  import opened ResponseDetection
  import opened SerialChannel

  datatype Shutter = Shutter(
    base: Channel,
    lastSetOpen: bool,
    openCommand: ByteString,
    openResponse: ByteString,
    closeCommand: ByteString,
    closeResponse: ByteString,
    queryCommand: ByteString,
    queryOpenResponse: ByteString,
    queryCloseResponse: ByteString)

  /** Everything but the channel's lifecycle flag and clock and the cached
      open flag is fixed: the commands and responses never change. */
  predicate SameShutterConfiguration(a: Shutter, b: Shutter) {
    SameConfiguration(a.base, b.base)
    && a.(base := b.base, lastSetOpen := b.lastSetOpen) == b
  }

  /** Initialization is the base channel's. */
  function Initialize(sh: Shutter, line: Line, now: nat): (s: Step<Shutter, ()>)
    ensures SameShutterConfiguration(sh, s.device) && s.device.lastSetOpen == sh.lastSetOpen
    ensures s.device.base == SerialChannel.Initialize(sh.base, line, now).device
    ensures s.written == SerialChannel.Initialize(sh.base, line, now).written
    ensures s.status == SerialChannel.Initialize(sh.base, line, now).status
    ensures s.device.base.initialized <==> sh.base.initialized || s.status.Success?
  {
    var x := SerialChannel.Initialize(sh.base, line, now);
    Step(sh.(base := x.device), x.written, x.status)
  }

  /** Shutdown is the base channel's. */
  function Shutdown(sh: Shutter, line: Line, now: nat): (s: Step<Shutter, ()>)
    ensures SameShutterConfiguration(sh, s.device) && s.device.lastSetOpen == sh.lastSetOpen
    ensures !s.device.base.initialized
    ensures s.device.base == SerialChannel.Shutdown(sh.base, line, now).device
    ensures s.written == SerialChannel.Shutdown(sh.base, line, now).written
    ensures s.status == SerialChannel.Shutdown(sh.base, line, now).status
  {
    var x := SerialChannel.Shutdown(sh.base, line, now);
    Step(sh.(base := x.device), x.written, x.status)
  }

  /** Sends the open or close command; on the expected reply the cached open
      flag becomes `open`, otherwise it is left as it was. */
  function SetOpen(sh: Shutter, open: bool, line: Line, now: nat): (s: Step<Shutter, ()>)
    ensures SameShutterConfiguration(sh, s.device)
    ensures s.device.base.initialized == sh.base.initialized
    ensures ClockRule(sh.base, s.device.base, s.written, line, now)
    ensures s.written == [WireBytes(sh.base, if open then sh.openCommand else sh.closeCommand)]
    ensures s.status.Success? <==>
      line.writeOk
      && Recv(sh.base.responseDetector, line.incoming) == Some(if open then sh.openResponse else sh.closeResponse)
    ensures s.device.lastSetOpen == if s.status.Success? then open else sh.lastSetOpen
    ensures s.status == if open then SendRecv(sh.base, sh.openCommand, sh.openResponse, line, now).status
                        else SendRecv(sh.base, sh.closeCommand, sh.closeResponse, line, now).status
  {
    var x := if open then SendRecv(sh.base, sh.openCommand, sh.openResponse, line, now)
             else SendRecv(sh.base, sh.closeCommand, sh.closeResponse, line, now);
    var lastSetOpen := if x.status.Success? then open else sh.lastSetOpen;
    Step(sh.(base := x.device, lastSetOpen := lastSetOpen), x.written, x.status)
  }

  /** Reports whether the shutter is open. Without a query command (an empty
      one) the cached flag is returned and nothing is sent. With one, the
      reply is matched against the open reply first, then the close reply,
      and the cached flag follows the answer. */
  function GetOpen(sh: Shutter, line: Line, now: nat): (s: Step<Shutter, bool>)
    ensures SameShutterConfiguration(sh, s.device)
    ensures s.device.base.initialized == sh.base.initialized
    ensures ClockRule(sh.base, s.device.base, s.written, line, now)
    ensures sh.queryCommand == [] ==> s == Step(sh, [], Success(sh.lastSetOpen))
    ensures sh.queryCommand != [] ==> s.written == [WireBytes(sh.base, sh.queryCommand)]
    ensures s.status.Success? ==> s.device.lastSetOpen == s.status.value
    ensures s.status.Failure? ==> s.device.lastSetOpen == sh.lastSetOpen
    ensures sh.queryCommand != [] && s.status.Success? ==>
      Recv(sh.base.responseDetector, line.incoming)
        == Some(if s.status.value then sh.queryOpenResponse else sh.queryCloseResponse)
    ensures sh.queryCommand != [] && s.status.Success? && !s.status.value ==>
      sh.queryOpenResponse != sh.queryCloseResponse
    ensures sh.queryCommand != [] ==> (s.status.Success? <==>
      line.writeOk && Recv(sh.base.responseDetector, line.incoming).Some?
      && Recv(sh.base.responseDetector, line.incoming).value in [sh.queryOpenResponse, sh.queryCloseResponse])
    ensures sh.queryCommand != [] ==>
      var q := SendQueryRecvAlternative(sh.base, sh.queryCommand, [sh.queryOpenResponse, sh.queryCloseResponse], line, now);
      (s.status.Failure? <==> q.status.Failure?)
      && (s.status.Failure? ==> s.status.error == q.status.error)
      && (s.status.Success? ==> (s.status.value <==> q.status.value == 0))
  {
    if sh.queryCommand == [] then Step(sh, [], Success(sh.lastSetOpen))
    else
      var x := SendQueryRecvAlternative(sh.base, sh.queryCommand, [sh.queryOpenResponse, sh.queryCloseResponse], line, now);
      match x.status
      case Failure(e) => Step(sh.(base := x.device), x.written, Failure(e))
      case Success(index) =>
        var open := index == 0;
        Step(sh.(base := x.device, lastSetOpen := open), x.written, Success(open))
  }

  /** The terminator scenario: with replies ending in `\r\n`, opening with
      reply `OK\r\n` succeeds and the shutter is then taken to be open. */
  lemma OpenScenario(sh: Shutter, later: ByteString, now: nat)
    requires sh.base.responseDetector == Terminator("\r\n", "\\r\\n")
    requires sh.openCommand == "OPEN" && sh.openResponse == "OK\r\n"
    ensures var s := SetOpen(sh, true, Line(true, "OK\r\n" + later), now);
            s.status.Success? && s.device.lastSetOpen
            && s.written == [if sh.base.binaryMode then "OPEN" else "OPEN" + sh.base.asciiTerminator]
  {
    CrLfReply(later);
  }
}

=== FILE: serial_state_device.dfy ===
/** The user-defined serial state device: an N-position device (a filter
    wheel, say) built on the shared command channel, with one
    command/response pair per position and an optional query whose reply
    is matched against one expected reply per position. */
module SerialStateDevice {

  import opened Outcomes
  import opened Bytes
  import opened ResponseDetection
  import opened SerialChannel

  datatype StateDevice = StateDevice(
    base: Channel,
    numPositions: nat,
    currentPosition: nat,
    positionCommands: seq<ByteString>,
    positionResponses: seq<ByteString>,
    queryCommand: ByteString,
    queryResponses: seq<ByteString>)

  /** The current position is a position, and each per-position table holds
      exactly one entry per position. */
  predicate Valid(d: StateDevice) {
    && d.currentPosition < d.numPositions
    && |d.positionCommands| == d.numPositions
    && |d.positionResponses| == d.numPositions
    && |d.queryResponses| == d.numPositions
  }

  /** Only the channel's lifecycle flag and clock and the current position
      differ: the tables keep their size and contents. Initialization,
      shutdown and moving or querying the device all keep this relation. */
  predicate SameTables(a: StateDevice, b: StateDevice) {
    SameConfiguration(a.base, b.base)
    && a.(base := b.base, currentPosition := b.currentPosition) == b
  }

  /** A device with `numPositions` positions, all commands and responses
      empty, at position 0. The number-of-positions setting admits only
      positive values. */
  function NewStateDevice(base: Channel, numPositions: nat): (d: StateDevice)
    requires numPositions >= 1
    ensures Valid(d)
    ensures d.numPositions == numPositions && d.currentPosition == 0
    ensures forall i :: 0 <= i < numPositions ==>
      d.positionCommands[i] == [] && d.positionResponses[i] == [] && d.queryResponses[i] == []
  {
    var empty := seq(numPositions, _ => []);
    StateDevice(base, numPositions, 0, empty, empty, [], empty)
  }

  /** Sets the command, response and query reply of one position; a
      position outside the table is refused. The per-position settings are
      created with the table, so they may be changed before or after
      initialization. */
  function SetPositionTemplate(d: StateDevice, position: nat, command: ByteString,
                               response: ByteString, queryResponse: ByteString): (r: Result<StateDevice, Error>)
    requires Valid(d)
    ensures r.Success? <==> position < d.numPositions
    ensures r.Failure? ==> r.error == ConfigError
    ensures r.Success? ==> Valid(r.value) && r.value.numPositions == d.numPositions
    ensures r.Success? ==> r.value.base == d.base && r.value.currentPosition == d.currentPosition
    ensures r.Success? ==>
      && r.value.positionCommands[position] == command
      && r.value.positionResponses[position] == response
      && r.value.queryResponses[position] == queryResponse
    ensures r.Success? ==> forall i :: 0 <= i < d.numPositions && i != position ==>
      && r.value.positionCommands[i] == d.positionCommands[i]
      && r.value.positionResponses[i] == d.positionResponses[i]
      && r.value.queryResponses[i] == d.queryResponses[i]
  {
    if position >= d.numPositions then Failure(ConfigError)
    else Success(d.(positionCommands := d.positionCommands[position := command],
                    positionResponses := d.positionResponses[position := response],
                    queryResponses := d.queryResponses[position := queryResponse]))
  }

  /** Initialization is the base channel's. */
  function Initialize(d: StateDevice, line: Line, now: nat): (s: Step<StateDevice, ()>)
    requires Valid(d)
    ensures Valid(s.device) && SameTables(d, s.device) && s.device.currentPosition == d.currentPosition
    ensures s.device.base == SerialChannel.Initialize(d.base, line, now).device
    ensures s.written == SerialChannel.Initialize(d.base, line, now).written
    ensures s.status == SerialChannel.Initialize(d.base, line, now).status
    ensures s.device.base.initialized <==> d.base.initialized || s.status.Success?
  {
    var x := SerialChannel.Initialize(d.base, line, now);
    Step(d.(base := x.device), x.written, x.status)
  }

  /** Shutdown is the base channel's. */
  function Shutdown(d: StateDevice, line: Line, now: nat): (s: Step<StateDevice, ()>)
    requires Valid(d)
    ensures Valid(s.device) && SameTables(d, s.device) && s.device.currentPosition == d.currentPosition
    ensures !s.device.base.initialized
    ensures s.device.base == SerialChannel.Shutdown(d.base, line, now).device
    ensures s.written == SerialChannel.Shutdown(d.base, line, now).written
    ensures s.status == SerialChannel.Shutdown(d.base, line, now).status
  {
    var x := SerialChannel.Shutdown(d.base, line, now);
    Step(d.(base := x.device), x.written, x.status)
  }

  /** Moves to `position`: a position outside the table is refused without
      sending anything; otherwise that position's command is sent, and only
      its expected reply makes `position` current. */
  function SetState(d: StateDevice, position: nat, line: Line, now: nat): (s: Step<StateDevice, ()>)
    requires Valid(d)
    ensures Valid(s.device) && SameTables(d, s.device)
    ensures s.device.base.initialized == d.base.initialized
    ensures ClockRule(d.base, s.device.base, s.written, line, now)
    ensures position >= d.numPositions ==> s == Step(d, [], Failure(ConfigError))
    ensures position < d.numPositions ==>
      s.written == [WireBytes(d.base, d.positionCommands[position])]
      && (s.status.Success? <==>
          line.writeOk && Recv(d.base.responseDetector, line.incoming) == Some(d.positionResponses[position]))
      && s.status == SendRecv(d.base, d.positionCommands[position], d.positionResponses[position], line, now).status
    ensures s.device.currentPosition == if s.status.Success? then position else d.currentPosition
  {
    if position >= d.numPositions then Step(d, [], Failure(ConfigError))
    else
      var x := SendRecv(d.base, d.positionCommands[position], d.positionResponses[position], line, now);
      var current := if x.status.Success? then position else d.currentPosition;
      Step(d.(base := x.device, currentPosition := current), x.written, x.status)
  }

  /** Reports the current position. Without a query command (an empty one)
      the cached position is returned and nothing is sent. With one, the
      reply is matched against the query replies in position order and the
      first match becomes the current position. */
  function GetState(d: StateDevice, line: Line, now: nat): (s: Step<StateDevice, nat>)
    requires Valid(d)
    ensures Valid(s.device) && SameTables(d, s.device)
    ensures s.device.base.initialized == d.base.initialized
    ensures ClockRule(d.base, s.device.base, s.written, line, now)
    ensures d.queryCommand == [] ==> s == Step(d, [], Success(d.currentPosition))
    ensures d.queryCommand != [] ==> s.written == [WireBytes(d.base, d.queryCommand)]
    ensures s.status.Success? ==> s.device.currentPosition == s.status.value < d.numPositions
    ensures s.status.Failure? ==> s.device.currentPosition == d.currentPosition
    ensures d.queryCommand != [] && s.status.Success? ==>
      Recv(d.base.responseDetector, line.incoming) == Some(d.queryResponses[s.status.value])
      && forall j :: 0 <= j < s.status.value ==> d.queryResponses[j] != d.queryResponses[s.status.value]
    ensures d.queryCommand != [] ==> (s.status.Failure? <==>
      !line.writeOk || Recv(d.base.responseDetector, line.incoming).None?
      || Recv(d.base.responseDetector, line.incoming).value !in d.queryResponses)
    ensures d.queryCommand != [] ==>
      s.status == SendQueryRecvAlternative(d.base, d.queryCommand, d.queryResponses, line, now).status
  {
    if d.queryCommand == [] then Step(d, [], Success(d.currentPosition))
    else
      var x := SendQueryRecvAlternative(d.base, d.queryCommand, d.queryResponses, line, now);
      match x.status
      case Failure(e) => Step(d.(base := x.device), x.written, Failure(e))
      case Success(index) => Step(d.(base := x.device, currentPosition := index), x.written, Success(index))
  }

  /** One past the last position is refused and the position is kept. */
  lemma SetStatePastLastRefused(d: StateDevice, line: Line, now: nat)
    requires Valid(d)
    ensures var s := SetState(d, d.numPositions, line, now);
            s.status == Failure(ConfigError) && s.device.currentPosition == d.currentPosition && s.written == []
  {
  }

  /** Three positions with query replies `P0`, `P1`, `P2`: the reply `P2`
      makes position 2 current. */
  lemma QueryScenario(d: StateDevice, now: nat)
    requires Valid(d) && d.numPositions == 3
    requires d.queryCommand != []
    requires d.queryResponses == ["P0", "P1", "P2"]
    requires d.base.responseDetector == FixedLength(2)
    ensures var s := GetState(d, Line(true, "P2"), now);
            s.status == Success(2) && s.device.currentPosition == 2
  {
    var reply: ByteString := "P2";
    assert reply[..2] == reply;
    assert reply != d.queryResponses[0] && reply != d.queryResponses[1];
  }
}
